=== FILE: README.md ===
# PR Sensei review lifecycle, in Dafny

This project models the core of PR Sensei (the `pullPall` repository): the life of a
generated pull-request review. A review is created on the dashboard from a repository URL
and a PR number. It is opened, edited and saved on the review page. It is exported as
Markdown with "Copy Review". It is published once to GitHub with "Post to GitHub", and the
comment id that comes back is stored on it. The backend helper `GitHubCommenter` is also
modelled: it extracts owner and repository from a URL, builds the GitHub REST API URLs, and
classifies HTTP statuses.

Modules:

- `Wrappers`: `Option` and `Result`.
- `Sequences`: element-independent sequence facts and the suffix test `EndsWith`.
- `Strings`: JavaScript and Python string operations the code relies on: `split`, `join`,
  `includes` / `in`, `replace(pat, '')`, `rstrip`, `filter(Boolean)` and integer rendering.
- `Utils`: `truncate`, `getGitHubAvatarUrl` and `parseGitHubUrl` of `client/src/lib/utils.ts`.
- `ManageReview`: `backend/manageReview.py`.
- `Reviews`: the `Review` record, an abstract store, and the list edits of the editor.
- `Export`: `getReviewText`, with a decoder as its partner.
- `PageHeader`: the `owner/repo` title shown for a review.
- `ReviewPage`: the review page as a state machine. Events are edit toggle, save, draft
  edits, the post click, and the post call settling.
- `Dashboard`: `handleGenerateReview`.

Inputs the model takes as parameters:

- The store module `lib/store` is not part of this model. It is an abstract map from review
  id to review. `updateReview` merges a patch into the stored review. `addReview` files a
  review under its id. `postToGitHub` appears only through its outcome, a `PostResult`.
- The outcome of `new URL(...)` is an `Option<ParsedUrl>` input, `None` when it throws.
- The outcome of `parseInt` is a `NumberValue` input.
- The clock readings behind `Date.now()` / `new Date()` are inputs.
- `formatDate` is a function parameter.
- The HTTP calls and the Gemini call are function parameters.

The review page re-reads the review from the store whenever the store's `reviews` change
(its effect on `[id, reviews]`). The model applies that effect (`ReviewPage.Refresh`) after
every store update. This assumes the store replaces its `reviews` array when it updates a
review.

Behaviours the proofs make explicit:

- The at-most-once publish guarantee rests on that effect. A successful post writes the
  comment id into the store. The effect brings it back into the displayed review. Only then
  does the disabled check on the button see it.
- `replace('.git', '')` is a single left-to-right pass. It can leave `.git` in a repository
  name: `a.g.gitit` becomes `a.git` (`ManageReview.RemoveIsSinglePass`).
- The title slice `split('/').slice(-2)` does not strip a trailing slash, while the backend's
  `rstrip('/')` does. `https://github.com/o/r/` is titled `r/`.
- `truncate` with a negative length slices from the end, as JavaScript's `slice` does.
- A post that succeeds while the user is editing discards the unsaved edits. The store
  update re-runs the effect, and the effect resets the draft to the stored review
  (`ReviewPage.SuccessMarksPublished`).

## Model

| member | source | states |
|---|---|---|
| Strings.TrimEnd | backend/manageReview.py:52 | `rstrip('/')`: the result is a prefix of the input, does not end in the character, and everything cut off is that character |
| Strings.SplitShape | backend/manageReview.py:52-53 | `split('/')` yields pieces without `/`, and more than one piece exactly when the string holds a `/`, which is what decides whether `parts[-2]` exists |
| Strings.RemoveAll | backend/manageReview.py:54 | `replace('.git', '')` leaves a string without the pattern as it is, removes the pattern's length in characters for each occurrence its left-to-right scan finds, shortens the string iff the pattern occurs, and adds no character |
| Strings.Occurrences | backend/manageReview.py:54 | the left-to-right, non-overlapping scan finds at least one occurrence iff the string contains the pattern |
| Strings.NonEmpty | client/src/lib/utils.ts:33 | `filter(Boolean)` keeps every non-empty piece exactly as often as it occurs (equal multisets once the empty pieces are dropped), and nothing else |
| Strings.NonEmptyAppend | client/src/lib/utils.ts:33 | filtering distributes over concatenation, so the kept pieces stay in their input order |
| Utils.Truncate | client/src/lib/utils.ts:16-19 | a string that fits is returned unchanged; a longer one is a prefix of the input followed by `...`, of length `length + 3` for a non-negative length, and for a negative one counted from the back and clamped at the empty prefix |
| Utils.TruncateFits | client/src/lib/utils.ts:16-19 | a truncated string fits the bound plus the ellipsis, so truncating it again with that bound changes nothing |
| Utils.AvatarUrl | client/src/lib/utils.ts:21-23 | the avatar URL starts with `https://github.com/`, ends with `.png`, and the user name can be read back from between them |
| Utils.PathSegments | client/src/lib/utils.ts:33 | the segments are exactly the non-empty pieces between slashes, each as often as it occurs, and none holds a `/` |
| Utils.PathSegmentsConcat | client/src/lib/utils.ts:33 | the segments of `a/b` are those of `a` followed by those of `b`: order is kept |
| Utils.PathSegmentsName | client/src/lib/utils.ts:33 | a slash-free name is one segment, and the empty path has none |
| Utils.PathSegmentsLeading | client/src/lib/utils.ts:33 | leading slashes produce no segments |
| Utils.ParseGitHubUrl | client/src/lib/utils.ts:25-46 | a repository is returned iff the URL constructed, its host contains `github.com`, and its path has at least two non-empty segments; otherwise none is; the owner and repository are then the first two segments, non-empty and slash-free |
| Utils.ParseIgnoresTrailingSegments | client/src/lib/utils.ts:33-42 | path segments after the repository do not change the result |
| Utils.ParseRepoPath | client/src/lib/utils.ts:25-46 | on a GitHub host, a path whose first two non-empty segments are `owner` and `repo` parses to exactly that pair, whatever slashes lead or separate them and whatever follows |
| ManageReview.ExtractOwnerRepo | backend/manageReview.py:51-55 | owner and repository are returned iff a `/` remains after stripping trailing slashes, else `IndexError`; neither contains `/` |
| ManageReview.ExtractIgnoresTrailingSlashes | backend/manageReview.py:52 | any number of trailing slashes gives the same result |
| ManageReview.ExtractFromPath | backend/manageReview.py:51-55 | for a URL ending in `owner/repo` and any trailing slashes, where the owner starts the URL or follows a `/` (so `owner/repo` alone is covered), the owner is that segment and the repository is the last segment with `.git` removed |
| ManageReview.ExtractExample | backend/manageReview.py:85 | the script's example URL yields `Enejivk` and `axes-neo-interface` |
| ManageReview.RemoveIsSinglePass | backend/manageReview.py:54 | removal is one pass, so `a.g.gitit` becomes `a.git`, which still contains `.git` |
| ManageReview.ApiUrl | backend/manageReview.py:60 | both endpoint URLs are the API base followed by `owner/repo/kind/number/leaf`, which splits back into those five pieces when the words hold no `/` |
| ManageReview.FilesUrl | backend/manageReview.py:60 | the files URL is the API base followed by a path that splits back into owner, repository, `pulls`, the number and `files` |
| ManageReview.CommentsUrl | backend/manageReview.py:73 | the comments URL is the API base followed by a path that splits back into owner, repository, `issues`, the number and `comments` |
| ManageReview.GetComment | backend/manageReview.py:57-69 | a bad URL raises `IndexError`; an exception from the request propagates; a status other than 200 raises an HTTP error with that status and `Failed to fetch PR files.`; on 200 a body that does not decode raises, and otherwise the generator's outcome is returned; a returned comment is always generator output |
| ManageReview.PostComment | backend/manageReview.py:71-81 | a bad URL raises `IndexError`; success is reported iff the comment request answers 201; an exception from the request propagates; any other status raises an HTTP error with that status and `Failed to post comment.` |
| Reviews.Merge | client/src/pages/ReviewPage.tsx:72 | `{ ...review, ...patch }`: each of the nine fields takes the patch's value when the patch sets it and keeps the stored value otherwise, so the empty patch changes nothing |
| Reviews.MergeIdempotent | client/src/pages/ReviewPage.tsx:85 | applying the same patch twice is applying it once |
| Reviews.MergeWhole | client/src/pages/ReviewPage.tsx:72 | updating with a whole review replaces the stored review by it |
| Reviews.MergeCommentId | client/src/pages/ReviewPage.tsx:85 | updating with `{ githubCommentId }` sets that field and changes no other |
| Reviews.UpdateReview | client/src/pages/ReviewPage.tsx:85 | `updateReview` keeps the set of ids, merges the patch into the named review, leaves every other review alone, and ignores an unknown id |
| Reviews.AddReview | client/src/pages/DashboardPage.tsx:81 | `addReview` makes the review visible under its id and leaves every other review alone |
| Reviews.AppendEmpty | client/src/pages/ReviewPage.tsx:257-262 | "Add" keeps every entry and appends one empty entry |
| Reviews.RemoveAt | client/src/pages/ReviewPage.tsx:245-248 | "×" drops exactly the entry at the index and keeps the others in order; an index outside the list changes nothing |
| Reviews.ReplaceAt | client/src/pages/ReviewPage.tsx:236-240 | typing in an entry changes that entry only and keeps the length |
| Reviews.RemoveUndoesAdd | client/src/pages/ReviewPage.tsx:245-262 | removing the entry "Add" just appended gives back the list |
| Reviews.ReplaceRoundTrip | client/src/pages/ReviewPage.tsx:236-240 | writing back the old entry after a replacement restores the list |
| Export.BulletLines | client/src/pages/ReviewPage.tsx:111 | one `- item` line per entry, in order |
| Export.ReviewText | client/src/pages/ReviewPage.tsx:103-120 | `getReviewText` starts with the line `# PR Review for {repoUrl} #{prNumber}`, then `Generated on {formatDate(createdAt)}` and a blank line, and ends with `Generated by PR Sensei`; its partner `Export.DecodeExport` reads the sections back |
| Export.DecodeExport | client/src/pages/ReviewPage.tsx:103-120 | decoding the export recovers the summary and all three lists, entry for entry and in order, whenever the shown fields are single lines |
| PageHeader.LastTwo | client/src/pages/ReviewPage.tsx:140 | `slice(-2)` gives the last two elements, or the whole array when it is shorter |
| PageHeader.DisplayName | client/src/pages/ReviewPage.tsx:140 | the title `split('/').slice(-2).join('/')` is always a suffix of the repository URL, and a URL with at most one slash (at most two pieces) is its own title |
| PageHeader.DisplayNameOfPair | client/src/pages/ReviewPage.tsx:140 | a bare `owner/repo` is titled `owner/repo` |
| PageHeader.DisplayNameOfRepo | client/src/pages/ReviewPage.tsx:140 | a URL ending in `/owner/repo` is titled `owner/repo` |
| PageHeader.DisplayNameTrailingSlash | client/src/pages/DashboardPage.tsx:167 | a URL ending in `/owner/repo/` is titled `repo/` |
| ReviewPage.ApplyEdit | client/src/pages/ReviewPage.tsx:211-376 | an edit changes only the field it targets and never the id, repository, PR number, creation time or comment id; "Add" lengthens the list by one, "×" shortens it by one, typing keeps its length |
| ReviewPage.Open | client/src/pages/ReviewPage.tsx:39-61 | the page shows a review iff its id is in the store, with the draft a copy of it, outside edit mode and not posting |
| ReviewPage.Refresh | client/src/pages/ReviewPage.tsx:39-47 | the effect shows the stored review under the displayed id and resets the draft to it; an id not in the store changes nothing; nothing but review and draft changes |
| ReviewPage.RefreshIdempotent | client/src/pages/ReviewPage.tsx:39-47 | in a store that files reviews under their ids, running the effect again changes nothing |
| ReviewPage.HandleEditToggle | client/src/pages/ReviewPage.tsx:63-68 | the toggle flips edit mode; entering it resets the draft to the review; neither direction touches the store or the review |
| ReviewPage.HandleSave | client/src/pages/ReviewPage.tsx:70-76 | save leaves edit mode; for a stored review whose draft keeps its id, the store then holds the draft under that id and the page shows it; the posting state is untouched |
| ReviewPage.PostEnabled | client/src/pages/ReviewPage.tsx:187 | the post button is usable only outside edit mode for a review without a truthy comment id, and under the page invariant never while a post is in flight |
| ReviewPage.BeginPost | client/src/pages/ReviewPage.tsx:78-83 | the click sets the posting flag, clears the error and hands the displayed review to `postToGitHub`, leaving the store alone |
| ReviewPage.SettlePost | client/src/pages/ReviewPage.tsx:83-95 | a truthy comment id is merged into the review the call was made for and clears the error; a falsy result or a rejection leaves the store and review alone and shows the failure or error message; the posting flag is cleared either way |
| ReviewPage.Step | client/src/pages/ReviewPage.tsx:157-192 | only an enabled post button hands a review to `postToGitHub`; draft edits never touch the store, the review or the edit mode |
| ReviewPage.OpenInv | client/src/pages/ReviewPage.tsx:39-47 | a freshly opened page satisfies the page invariant |
| ReviewPage.StepInv | client/src/pages/ReviewPage.tsx:63-95 | every event keeps the page invariant: the displayed review is the stored one, the draft keeps its identity, and a post is in flight only while posting and only for an unpublished review |
| ReviewPage.SaveCommitsDraft | client/src/pages/ReviewPage.tsx:70-76 | save stores the draft under the review's id, shows it, leaves edit mode, and keeps id, repository, PR number and creation time |
| ReviewPage.CancelDiscardsEdits | client/src/pages/ReviewPage.tsx:63-68 | entering edit mode, editing and cancelling leaves the store and the review as they were |
| ReviewPage.EditsOnlyTouchDraft | client/src/pages/ReviewPage.tsx:211-376 | any run of draft edits changes nothing but the draft |
| ReviewPage.ReplaceFirstStrengthAndSave | client/src/pages/ReviewPage.tsx:232-241 | editing the first strength and saving changes exactly that entry in the store and on the page |
| ReviewPage.NoSecondPostInFlight | client/src/pages/ReviewPage.tsx:182-188 | while a post is in flight, another click calls nothing |
| ReviewPage.FailureAllowsRetry | client/src/pages/ReviewPage.tsx:86-94 | after a failed post the review is unchanged and posting is enabled again |
| ReviewPage.SuccessMarksPublished | client/src/pages/ReviewPage.tsx:84-86 | a truthy comment id lands on the displayed review, the post button is disabled from then on, and the draft is reset to the stored review, discarding unsaved edits, while edit mode stays as it was |
| ReviewPage.AtMostOnce | client/src/pages/ReviewPage.tsx:182-189 | once a review carries a comment id, no sequence of events posts it again or changes that id |
| ReviewPage.StepKeepsCommentId | client/src/pages/ReviewPage.tsx:182-189 | no single event posts a published review or alters its comment id |
| Dashboard.Validate | client/src/pages/DashboardPage.tsx:54-66 | a URL `parseGitHubUrl` rejects fails with the repository message whatever the number; otherwise a NaN or non-positive number fails with the PR-number message; a number is accepted iff both checks pass, and it is then at least 1 |
| Dashboard.ShownAt | client/src/pages/DashboardPage.tsx:119-147 | an empty error is shown nowhere, as the `error &&` guards make it; any other error is shown somewhere, and in the banner below the button only when no field shows it |
| Dashboard.ErrorShownAtItsField | client/src/pages/DashboardPage.tsx:119-147 | each validation message is shown exactly once: under the URL field for a bad URL, under the PR-number field for a bad number, never in the banner |
| Dashboard.Submit | client/src/pages/DashboardPage.tsx:50-70 | while loading the form does nothing; a rejected submission only sets the error; an accepted one clears the error, starts loading and schedules the typed URL with the parsed number |
| Dashboard.NewReview | client/src/pages/DashboardPage.tsx:73-79 | the new review has id `review-` followed by the clock reading, the typed URL, the parsed number, the creation time, the demo content, and no comment id |
| Dashboard.Generate | client/src/pages/DashboardPage.tsx:72-84 | the timer adds the new review to the store and stops loading |
| Dashboard.RejectionHasNoEffect | client/src/pages/DashboardPage.tsx:54-66 | a rejected submission adds no review and starts no loading |
| Dashboard.AcceptedSubmissionAddsReview | client/src/pages/DashboardPage.tsx:68-84 | an accepted submission, once generated, files a review under its id with the typed URL, a PR number of at least 1 and no comment id |
| Dashboard.GeneratedReviewIsPostable | client/src/pages/DashboardPage.tsx:81-83 | the review page the dashboard navigates to finds the new review, satisfies its invariant, and has "Post to GitHub" enabled |

## Left out

- `cn` and all rendering, styling and animation are left out. They compute no data the lifecycle depends on.
- `formatDate` (`Intl.DateTimeFormat`) is a parameter. Locale formatting is outside Dafny's reach.
- The `new URL(...)` constructor is left out. Its outcome (hostname and pathname, or a throw) is an input.
- `parseInt` is left out. Its outcome is an input: NaN or an integer.
- The browser's own `required` / `min="1"` checks on the form fields are left out. Only the handler's checks are modelled.
- The store module `lib/store` is not part of this model. `postToGitHub`, `updateReview` and `addReview` are abstract. In particular, two reviews generated in the same millisecond share an id, and the map model keeps only the later one.
- The clipboard write, the "Copied!" timer and navigation are left out as I/O. The exported text itself is modelled.
- The two-second timer is modelled as a separate `Generate` step. Its delay is not modelled.
- React's batching and rendering schedule are left out. Every handler is one atomic step, and the store effect runs right after each store update.
- Unmounting the page while a post is in flight is left out.
- HTTP requests, headers, the token, `str(response.json())` and the Gemini call are parameters that return either a value or the exception they raised. `GitHubCommenter.__init__` (environment variables) and the body of `generate` are left out as I/O. Which exceptions those calls raise, and when, is not modelled: a raised exception is an opaque `Raised` value that propagates unchanged. The progress message `get_comment` prints before generating is left out as output.
- JavaScript string lengths count UTF-16 code units. The model counts characters, so `Truncate` agrees only on text without surrogate pairs.
- The "View on GitHub" link `{repoUrl}/pull/{prNumber}` is left out as rendering.
- Export.DecodeExport: the round trip requires the URL, the date, the summary and each list entry to be single lines. A line break inside one of them makes the text ambiguous.
- Strings.RemoveAll: when the pattern occurs, the contract fixes how many characters are removed but not which ones remain; the definition itself follows Python's left-to-right scan, and the concrete cases that matter are pinned by `ManageReview.ExampleName` and `ManageReview.RemoveIsSinglePass`.
- Utils.Truncate: `length` is an integer. JavaScript numbers may be fractional or NaN (`truncate("abc", 2.5)` gives `"ab..."`, `truncate("abc", NaN)` gives `"..."`), which the model does not cover.
- Dashboard.Validate: the parsed PR number is an unbounded integer or NaN. `parseInt` of a very long digit string gives `Infinity`, which passes both checks in the source and is exported as `#Infinity`; the model has no such value.
- Strings.IntToString: renders every integer in plain decimal. JavaScript prints numbers of 1e21 or more as `1e+21` and rounds integers beyond 2^53, so `Export.Heading` and the dashboard's review id agree with the source only for numbers below 2^53.

=== FILE: dashboard.dfy ===
/**
 `handleGenerateReview` of the dashboard: the repository URL is validated first, then
 the pull request number; only when both pass does the page start loading and, when
 its timer fires, add a review built from the inputs and the fixed demo content.
 */
module Dashboard {
  import opened Wrappers
  import opened Strings
  import opened Utils
  import opened Reviews
  import ReviewPage

  /** What JavaScript's `parseInt` made of the PR-number field. */
  datatype NumberValue = NaN | Num(n: int)

  const RepoError: string := "Please enter a valid GitHub repository URL"
  const PrError: string := "Please enter a valid PR number"

  /** The demo content every generated review starts from (`MOCK_REVIEW`). */
  const MockSummary: string := "This PR implements a new hook for managing form state. The implementation is clean and follows React best practices. There are a few areas where error handling could be improved."
  const MockStrengths: seq<string> := [
    "Good use of TypeScript for type safety",
    "Comprehensive test coverage",
    "Well-documented functions with examples"]
  const MockConcerns: seq<string> := [
    "Missing error handling in async operations",
    "Some functions could be optimized for performance"]
  const MockSuggestions: seq<string> := [
    "Consider adding more robust error handling, especially for network operations",
    "The FormProvider component could benefit from memoization",
    "Add more explicit typing for the form values object"]

  /** The two checks of `handleGenerateReview`, in their order: a URL `parseGitHubUrl`
      rejects fails with the repository message whatever the number is; otherwise a
      number that is NaN or not positive fails with the PR-number message. */
  function Validate(url: Option<ParsedUrl>, pr: NumberValue): (r: Result<int, string>)
    ensures ParseGitHubUrl(url).None? ==> r == Err(RepoError)
    ensures ParseGitHubUrl(url).Some? && !(pr.Num? && pr.n > 0) ==> r == Err(PrError)
    ensures r.Ok? <==> ParseGitHubUrl(url).Some? && pr.Num? && pr.n > 0
    ensures r.Ok? ==> r.value >= 1 && pr == Num(r.value)
  {
    if ParseGitHubUrl(url).None? then Err(RepoError)
    else if pr.NaN? || pr.n <= 0 then Err(PrError)
    else Ok(pr.n)
  }

  /** The three places the form can show an error. */
  datatype Slot = UrlField | NumberField | Banner

  /** Where an error message appears: under the URL field when it mentions `repository`,
      under the PR-number field when it mentions `PR number`, in the banner below the
      button when it mentions neither. Every place is guarded by `error &&`, so the empty
      string, which JavaScript treats as false, appears nowhere. */
  function ShownAt(error: string): (r: set<Slot>)
    ensures error == "" ==> r == {}
    ensures error != "" ==> r != {}
    ensures Banner in r ==> r == {Banner}
  {
    if error == "" then {}
    else
    (if Contains(error, "repository") then {UrlField} else {}) +
    (if Contains(error, "PR number") then {NumberField} else {}) +
    (if !Contains(error, "repository") && !Contains(error, "PR number") then {Banner} else {})
  }

  /** Each validation error appears exactly once, under the field it is about. */
  lemma ErrorShownAtItsField(url: Option<ParsedUrl>, pr: NumberValue)
    requires Validate(url, pr).Err?
    ensures ShownAt(Validate(url, pr).error) == if ParseGitHubUrl(url).None? then {UrlField} else {NumberField}
  {
    var msg := Validate(url, pr).error;
    if ParseGitHubUrl(url).None? {
      RepoErrorMentions();
      ShownUnderUrl(msg);
    } else {
      PrErrorMentions();
      ShownUnderNumber(msg);
    }
  }

  lemma ShownUnderUrl(msg: string)
    requires Contains(msg, "repository") && !Contains(msg, "PR number")
    ensures ShownAt(msg) == {UrlField}
  {
  }

  lemma ShownUnderNumber(msg: string)
    requires !Contains(msg, "repository") && Contains(msg, "PR number")
    ensures ShownAt(msg) == {NumberField}
  {
  }

  lemma RepoErrorMentions()
    ensures Contains(RepoError, "repository") && !Contains(RepoError, "PR number")
  {
    RepoErrorWords();
    ContainsAt(RepoError, "repository", 28);
    MissingChar(RepoError, "PR number", 'm');
  }

  lemma PrErrorMentions()
    ensures Contains(PrError, "PR number") && !Contains(PrError, "repository")
  {
    PrErrorWords();
    ContainsAt(PrError, "PR number", 21);
    MissingChar(PrError, "repository", 'y');
  }

  /** The repository message mentions `repository` at position 28 and has no `m`, which
      `PR number` has. */
  lemma RepoErrorWords()
    ensures "repository" <= RepoError[28..]
    ensures 'm' !in RepoError && 'm' in "PR number"
  {
    RepoErrorTail();
    RepoErrorNoM();
  }

  lemma RepoErrorTail()
    ensures "repository" <= RepoError[28..]
  {
    assert RepoError[28..] == "repository URL";
  }

  lemma RepoErrorNoM()
    ensures 'm' !in RepoError && 'm' in "PR number"
  {
    assert "PR number"[5] == 'm';
  }

  /** The PR-number message ends in `PR number` and has no `y`, which `repository` has. */
  lemma PrErrorWords()
    ensures "PR number" <= PrError[21..]
    ensures 'y' !in PrError && 'y' in "repository"
  {
    assert PrError[21..] == "PR number";
    assert "repository"[9] == 'y';
  }

  /** The dashboard's state. `pending` is the simulated generation the timer will finish:
      the repository URL and PR number it captured. */
  datatype Board = Board(store: Store, error: Option<string>, isLoading: bool, pending: Option<(string, int)>)

  /** Submitting the form. `url` is what `new URL(repoUrl)` gave (`None` when it threw),
      `pr` what `parseInt` gave. While loading, the submit button is disabled. */
  function Submit(b: Board, repoUrl: string, url: Option<ParsedUrl>, pr: NumberValue): (r: Board)
    ensures b.isLoading ==> r == b
    ensures !b.isLoading && Validate(url, pr).Err? ==>
      r == b.(error := Some(Validate(url, pr).error))
    ensures !b.isLoading && Validate(url, pr).Ok? ==>
      && r.isLoading && r.error.None? && r.store == b.store
      && r.pending == Some((repoUrl, Validate(url, pr).value))
  {
    if b.isLoading then b
    else
      match Validate(url, pr)
      case Err(msg) => b.(error := Some(msg))
      case Ok(n) => b.(error := None, isLoading := true, pending := Some((repoUrl, n)))
  }

  /** `{ ...MOCK_REVIEW, id: `review-${Date.now()}`, repoUrl, prNumber, createdAt }`.
      `stamp` is the clock reading behind the id, `createdAt` the creation time. */
  function NewReview(repoUrl: string, prNumber: int, stamp: nat, createdAt: int): (r: Review)
    ensures "review-" <= r.id && r.id[|"review-"|..] == NatToString(stamp)
    ensures r.repoUrl == repoUrl && r.prNumber == prNumber && r.createdAt == createdAt
    ensures r.summary == MockSummary && r.strengths == MockStrengths
    ensures r.concerns == MockConcerns && r.suggestions == MockSuggestions
    ensures r.githubCommentId.None?
  {
    Review("review-" + NatToString(stamp), repoUrl, prNumber, createdAt,
           MockSummary, MockStrengths, MockConcerns, MockSuggestions, None)
  }

  /** The timer fires: `addReview(newReview)` and stop loading. */
  function Generate(b: Board, stamp: nat, createdAt: int): (r: Board)
    requires b.pending.Some?
    ensures !r.isLoading && r.pending.None?
    ensures r.store == AddReview(b.store, NewReview(b.pending.value.0, b.pending.value.1, stamp, createdAt))
  {
    var (repoUrl, prNumber) := b.pending.value;
    b.(store := AddReview(b.store, NewReview(repoUrl, prNumber, stamp, createdAt)), isLoading := false, pending := None)
  }

  /** A rejected submission adds no review and starts no loading. */
  lemma RejectionHasNoEffect(b: Board, repoUrl: string, url: Option<ParsedUrl>, pr: NumberValue)
    requires Validate(url, pr).Err?
    ensures Submit(b, repoUrl, url, pr).store == b.store
    ensures Submit(b, repoUrl, url, pr).isLoading == b.isLoading
    ensures Submit(b, repoUrl, url, pr).pending == b.pending
  {
  }

  /** An accepted submission, once generated, files a review under its `review-` id whose
      repository URL is the one typed in and whose PR number is the parsed, positive one. */
  lemma AcceptedSubmissionAddsReview(b: Board, repoUrl: string, url: Option<ParsedUrl>, pr: NumberValue,
                                     stamp: nat, createdAt: int)
    requires !b.isLoading && Validate(url, pr).Ok?
    ensures var r := Generate(Submit(b, repoUrl, url, pr), stamp, createdAt);
      var id := "review-" + NatToString(stamp);
      && id in r.store
      && r.store[id].repoUrl == repoUrl
      && pr.Num? && r.store[id].prNumber == pr.n >= 1
      && r.store[id].strengths == MockStrengths
      && r.store[id].githubCommentId.None?
  {
  }

  /** A generated review opens on the review page ready to be posted: it is found, shown,
      and its "Post to GitHub" button is enabled. */
  lemma GeneratedReviewIsPostable(store: Store, repoUrl: string, prNumber: int, stamp: nat, createdAt: int)
    requires WellKeyed(store)
    ensures var r := NewReview(repoUrl, prNumber, stamp, createdAt);
      var p := ReviewPage.Open(AddReview(store, r), r.id);
      && p.Some?
      && ReviewPage.Inv(p.value)
      && ReviewPage.PostEnabled(p.value)
  {
    var r := NewReview(repoUrl, prNumber, stamp, createdAt);
    ReviewPage.OpenInv(AddReview(store, r), r.id);
  }
}

=== FILE: export.dfy ===
/**
 `getReviewText` of the review page: the Markdown text that "Copy Review" puts on the
 clipboard. Its partner is a decoder that reads the summary and the three lists back
 out of the text, which pins down the four sections in the order Summary, Strengths,
 Concerns, Suggestions with one `- item` line per entry in stored order. The text's own
 contract pins down the heading, the date line and the closing attribution line.
 */
module Export {
  import opened Wrappers
  import opened Sequences
  import opened Strings
  import opened Reviews

  /** `items.map(s => `- ${s}`)`. */
  function BulletLines(items: seq<string>): (lines: seq<string>)
    ensures |lines| == |items|
    ensures forall i :: 0 <= i < |items| ==> lines[i] == "- " + items[i]
    decreases |items|
  {
    if |items| == 0 then [] else ["- " + items[0]] + BulletLines(items[1..])
  }

  /** `items.map(s => `- ${s}`).join('\n')`. */
  function Bullets(items: seq<string>): string
  {
    Join(BulletLines(items), "\n")
  }

  /** `# PR Review for {repoUrl} #{prNumber}`. */
  function Heading(r: Review): string
  {
    "# PR Review for " + r.repoUrl + " #" + IntToString(r.prNumber)
  }

  const Attribution: string := "Generated by PR Sensei"

  /** Two paragraphs separated by a blank line. */
  function Para(a: string, b: string): (r: string)
    ensures |r| == |a| + |b| + 2
    ensures a <= r
    ensures r[|r| - |b|..] == b
  {
    a + "\n\n" + b
  }

  /** A section: its title line, then its body. */
  function Section(title: string, body: string): string
  {
    title + "\n" + body
  }

  /** `getReviewText()`: heading and date line, then the Summary, Strengths, Concerns and
      Suggestions sections and the attribution, separated by blank lines. `formatDate`
      renders the creation time (`Intl.DateTimeFormat` in the client) and is a parameter
      of the model. */
  function ReviewText(r: Review, formatDate: int -> string): (text: string)
    ensures Heading(r) + "\n" + "Generated on " + formatDate(r.createdAt) + "\n\n" <= text
    ensures EndsWith(text, Attribution)
  {
    var head := Heading(r) + "\n";
    var top := head + "Generated on " + formatDate(r.createdAt);
    var p4 := Para(Section("## Suggestions", Bullets(r.suggestions)), Attribution);
    var p3 := Para(Section("## Concerns", Bullets(r.concerns)), p4);
    var p2 := Para(Section("## Strengths", Bullets(r.strengths)), p3);
    var p1 := Para(Section("## Summary", r.summary), p2);
    ParaEnds(Section("## Concerns", Bullets(r.concerns)), p4, Attribution);
    ParaEnds(Section("## Strengths", Bullets(r.strengths)), p3, Attribution);
    ParaEnds(Section("## Summary", r.summary), p2, Attribution);
    ParaEnds(top, p1, Attribution);
    Para(top, p1)
  }

  /** A paragraph keeps the ending of the text after its blank line. */
  lemma ParaEnds(a: string, b: string, c: string)
    requires EndsWith(b, c)
    ensures EndsWith(Para(a, b), c)
  {
    var t := Para(a, b);
    assert t[|t| - |c|..] == t[|t| - |b|..][|b| - |c|..];
  }

  /** The lines of a list section's body: one bullet per entry, or a single empty line
      when the list is empty (the empty join). */
  function Block(items: seq<string>): (lines: seq<string>)
    ensures |lines| >= 1
  {
    if |items| == 0 then [""] else BulletLines(items)
  }

  /** Two groups of lines separated by a blank line. */
  function Gap(a: seq<string>, b: seq<string>): seq<string>
  {
    a + [""] + b
  }

  /** A list section's lines: the title line, then the body. */
  function SectionLines(title: string, items: seq<string>): seq<string>
  {
    [title] + Block(items)
  }

  /** The export, line by line. */
  function ReviewLines(r: Review, formatDate: int -> string): seq<string>
  {
    Gap([Heading(r), "Generated on " + formatDate(r.createdAt)],
    Gap(["## Summary", r.summary],
    Gap(SectionLines("## Strengths", r.strengths),
    Gap(SectionLines("## Concerns", r.concerns),
    Gap(SectionLines("## Suggestions", r.suggestions),
    [Attribution])))))
  }

  /** The content fields an export carries. */
  datatype Content = Content(summary: string, strengths: seq<string>, concerns: seq<string>, suggestions: seq<string>)

  function ContentOf(r: Review): Content
  {
    Content(r.summary, r.strengths, r.concerns, r.suggestions)
  }

  /** Reads the leading run of `- ` lines: their texts and how many there were. */
  function TakeBullets(lines: seq<string>): (res: (seq<string>, nat))
    ensures res.1 <= |lines|
    decreases |lines|
  {
    if |lines| > 0 && "- " <= lines[0] then
      var rest := TakeBullets(lines[1..]);
      ([lines[0][2..]] + rest.0, rest.1 + 1)
    else ([], 0)
  }

  /** Reads a list section's body, followed by the blank line that closes it, and returns
      the entries and the lines after the blank line. */
  function ReadBlock(lines: seq<string>): Option<(seq<string>, seq<string>)>
  {
    var (items, n) := TakeBullets(lines);
    var after := if n == 0 && |lines| > 0 && lines[0] == "" then lines[1..] else lines[n..];
    if (n == 0 && !(|lines| > 0 && lines[0] == "")) || |after| == 0 || after[0] != "" then None
    else Some((items, after[1..]))
  }

  /** Reads the content back out of the lines of an export. */
  function DecodeLines(lines: seq<string>): Option<Content>
  {
    if |lines| < 7 || lines[2] != "" || lines[3] != "## Summary" || lines[5] != "" || lines[6] != "## Strengths"
    then None
    else
      match ReadBlock(lines[7..])
      case None => None
      case Some((strengths, rest1)) =>
        if |rest1| == 0 || rest1[0] != "## Concerns" then None
        else
          match ReadBlock(rest1[1..])
          case None => None
          case Some((concerns, rest2)) =>
            if |rest2| == 0 || rest2[0] != "## Suggestions" then None
            else
              match ReadBlock(rest2[1..])
              case None => None
              case Some((suggestions, rest3)) =>
                if rest3 != [Attribution] then None
                else Some(Content(lines[4], strengths, concerns, suggestions))
  }

  /** Reads the content back out of an exported text. */
  function Decode(text: string): Option<Content>
  {
    DecodeLines(Split(text, '\n'))
  }

  /** The fields an export shows on one line each hold no line break. */
  predicate SingleLine(r: Review, formatDate: int -> string)
  {
    && '\n' !in r.repoUrl
    && '\n' !in formatDate(r.createdAt)
    && '\n' !in r.summary
    && (forall i :: 0 <= i < |r.strengths| ==> '\n' !in r.strengths[i])
    && (forall i :: 0 <= i < |r.concerns| ==> '\n' !in r.concerns[i])
    && (forall i :: 0 <= i < |r.suggestions| ==> '\n' !in r.suggestions[i])
  }

  /** Round trip: decoding an export recovers the summary and the three lists, entry for
      entry and in order, whenever the displayed fields are single lines. */
  lemma DecodeExport(r: Review, formatDate: int -> string)
    requires SingleLine(r, formatDate)
    ensures Decode(ReviewText(r, formatDate)) == Some(ContentOf(r))
  {
    TextIsLines(r, formatDate);
    LinesAreSingle(r, formatDate);
    SplitJoin(ReviewLines(r, formatDate), '\n');
    DecodeReviewLines(r, formatDate);
  }

  /** The export text is its lines joined with line breaks. */
  lemma TextIsLines(r: Review, formatDate: int -> string)
    ensures ReviewText(r, formatDate) == Join(ReviewLines(r, formatDate), "\n")
  {
    var date := "Generated on " + formatDate(r.createdAt);
    var head := [Heading(r), date];
    var s1 := ["## Summary", r.summary];
    var s2 := SectionLines("## Strengths", r.strengths);
    var s3 := SectionLines("## Concerns", r.concerns);
    var s4 := SectionLines("## Suggestions", r.suggestions);
    var tail := [Attribution];
    JoinTwo(Heading(r), date, "\n");
    AppendAssoc(Heading(r) + "\n", "Generated on ", formatDate(r.createdAt));
    JoinTwo("## Summary", r.summary, "\n");
    SectionJoin("## Strengths", r.strengths);
    SectionJoin("## Concerns", r.concerns);
    SectionJoin("## Suggestions", r.suggestions);
    var g4 := Gap(s4, tail);
    var g3 := Gap(s3, g4);
    var g2 := Gap(s2, g3);
    var g1 := Gap(s1, g2);
    JoinGap(s4, tail);
    JoinGap(s3, g4);
    JoinGap(s2, g3);
    JoinGap(s1, g2);
    JoinGap(head, g1);
  }

  /** Two non-empty groups of lines separated by a blank line join as two paragraphs. */
  lemma JoinGap(a: seq<string>, b: seq<string>)
    requires |a| >= 1 && |b| >= 1
    ensures Join(Gap(a, b), "\n") == Para(Join(a, "\n"), Join(b, "\n"))
  {
    var eb := [""] + b;
    AppendAssoc(a, [""], b);
    JoinAppend(a, eb, "\n");
    JoinCons("", b, "\n");
    BlankLine(Join(a, "\n"), Join(b, "\n"));
  }

  /** A line break, an empty line and a line break make the blank line of a paragraph break. */
  lemma BlankLine(x: string, y: string)
    ensures x + "\n" + ("" + "\n" + y) == Para(x, y)
  {
    assert "" + "\n" == "\n";
    AppendAssoc(x, "\n", "\n" + y);
    AppendAssoc("\n", "\n", y);
    assert "\n" + "\n" == "\n\n";
    AppendAssoc(x, "\n\n", y);
  }

  /** A list section joins to its title line followed by the bullet text. */
  lemma SectionJoin(title: string, items: seq<string>)
    ensures Join(SectionLines(title, items), "\n") == Section(title, Bullets(items))
  {
    JoinCons(title, Block(items), "\n");
  }

  /** No line of the export holds a line break. */
  lemma LinesAreSingle(r: Review, formatDate: int -> string)
    requires SingleLine(r, formatDate)
    ensures Free(ReviewLines(r, formatDate), '\n')
  {
    var head := [Heading(r), "Generated on " + formatDate(r.createdAt)];
    var s1 := ["## Summary", r.summary];
    var s2 := SectionLines("## Strengths", r.strengths);
    var s3 := SectionLines("## Concerns", r.concerns);
    var s4 := SectionLines("## Suggestions", r.suggestions);
    HeadSingle(r, formatDate);
    FixedLinesSingle();
    assert Free(s1, '\n');
    SectionSingle("## Strengths", r.strengths);
    SectionSingle("## Concerns", r.concerns);
    SectionSingle("## Suggestions", r.suggestions);
    var g4 := Gap(s4, [Attribution]);
    var g3 := Gap(s3, g4);
    var g2 := Gap(s2, g3);
    var g1 := Gap(s1, g2);
    FreeGap(s4, [Attribution]);
    FreeGap(s3, g4);
    FreeGap(s2, g3);
    FreeGap(s1, g2);
    FreeGap(head, g1);
  }

  /** The two heading lines hold no line break. */
  lemma HeadSingle(r: Review, formatDate: int -> string)
    requires '\n' !in r.repoUrl && '\n' !in formatDate(r.createdAt)
    ensures Free([Heading(r), "Generated on " + formatDate(r.createdAt)], '\n')
  {
    var digits := IntToString(r.prNumber);
    assert '\n' !in digits;
    assert '\n' !in "# PR Review for " && '\n' !in " #" && '\n' !in "Generated on ";
  }

  /** The fixed lines hold no line break. */
  lemma FixedLinesSingle()
    ensures '\n' !in "## Summary" && '\n' !in "## Strengths" && '\n' !in "## Concerns"
    ensures '\n' !in "## Suggestions" && Free([Attribution], '\n')
  {
  }

  lemma FreeGap(a: seq<string>, b: seq<string>)
    requires Free(a, '\n') && Free(b, '\n')
    ensures Free(Gap(a, b), '\n')
  {
    var g := Gap(a, b);
    forall i | 0 <= i < |g|
      ensures '\n' !in g[i]
    {
      if i < |a| {
        assert g[i] == a[i];
      } else if i > |a| {
        assert g[i] == b[i - |a| - 1];
      }
    }
  }

  lemma SectionSingle(title: string, items: seq<string>)
    requires '\n' !in title
    requires forall i :: 0 <= i < |items| ==> '\n' !in items[i]
    ensures Free(SectionLines(title, items), '\n')
  {
    var lines := SectionLines(title, items);
    forall i | 0 <= i < |lines|
      ensures '\n' !in lines[i]
    {
      if i > 0 {
        assert lines[i] == Block(items)[i - 1];
      }
    }
  }

  /** The bullets of a list followed by a line that is not a bullet read back as the list. */
  lemma {:induction false} TakeBulletLines(items: seq<string>, tail: seq<string>)
    requires |tail| > 0 && !("- " <= tail[0])
    ensures TakeBullets(BulletLines(items) + tail) == (items, |items|)
    decreases |items|
  {
    var lines := BulletLines(items) + tail;
    if |items| == 0 {
      EmptyAppend(BulletLines(items), tail);
    } else {
      var first := "- " + items[0];
      var more := BulletLines(items[1..]);
      assert BulletLines(items) == [first] + more;
      AppendAssoc([first], more, tail);
      ConsParts(first, more + tail);
      TakeBulletLines(items[1..], tail);
      assert "- " <= first && first[2..] == items[0];
      HeadTail(items);
    }
  }

  /** A list section's body followed by the closing blank line reads back as the list. */
  lemma ReadBlockOf(items: seq<string>, rest: seq<string>)
    ensures ReadBlock(Block(items) + [""] + rest) == Some((items, rest))
  {
    var lines := Block(items) + [""] + rest;
    AppendAssoc(Block(items), [""], rest);
    if |items| == 0 {
      ConsParts("", [""] + rest);
      ConsParts("", rest);
      assert TakeBullets(lines) == ([], 0);
    } else {
      TakeBulletLines(items, [""] + rest);
      assert lines[|items|..] == [""] + rest;
      ConsParts("", rest);
    }
  }

  /** Decoding the lines of an export gives back the content. */
  lemma DecodeReviewLines(r: Review, formatDate: int -> string)
    ensures DecodeLines(ReviewLines(r, formatDate)) == Some(ContentOf(r))
  {
    var head := [Heading(r), "Generated on " + formatDate(r.createdAt)];
    var s1 := ["## Summary", r.summary];
    var r3 := [Attribution];
    var r2 := Gap(SectionLines("## Suggestions", r.suggestions), r3);
    var r1 := Gap(SectionLines("## Concerns", r.concerns), r2);
    var r0 := Gap(SectionLines("## Strengths", r.strengths), r1);
    var lines := Gap(head, Gap(s1, r0));
    SectionRead("## Strengths", r.strengths, r1);
    SectionRead("## Concerns", r.concerns, r2);
    SectionRead("## Suggestions", r.suggestions, r3);
    Layout(head, "", s1, r0);
    DecodeSteps(lines, ContentOf(r), r1, r2);
  }

  /** The decoder's steps: when every check it makes passes, it returns what it read. */
  lemma DecodeSteps(lines: seq<string>, c: Content, r1: seq<string>, r2: seq<string>)
    requires |lines| >= 7 && lines[2] == "" && lines[3] == "## Summary" && lines[4] == c.summary
    requires lines[5] == "" && lines[6] == "## Strengths"
    requires ReadBlock(lines[7..]) == Some((c.strengths, r1))
    requires |r1| >= 1 && r1[0] == "## Concerns" && ReadBlock(r1[1..]) == Some((c.concerns, r2))
    requires |r2| >= 1 && r2[0] == "## Suggestions" && ReadBlock(r2[1..]) == Some((c.suggestions, [Attribution]))
    ensures DecodeLines(lines) == Some(c)
  {
  }

  /** A list section followed by a blank line reads back as its title and its entries. */
  lemma SectionRead(title: string, items: seq<string>, rest: seq<string>)
    ensures |Gap(SectionLines(title, items), rest)| >= 1
    ensures Gap(SectionLines(title, items), rest)[0] == title
    ensures ReadBlock(Gap(SectionLines(title, items), rest)[1..]) == Some((items, rest))
  {
    GapSection(title, items, rest);
    ReadBlockOf(items, rest);
  }

  /** A list section followed by a blank line and more lines: its title line, then its body. */
  lemma GapSection(title: string, items: seq<string>, rest: seq<string>)
    ensures |Gap(SectionLines(title, items), rest)| >= 1
    ensures Gap(SectionLines(title, items), rest)[0] == title
    ensures Gap(SectionLines(title, items), rest)[1..] == Block(items) + [""] + rest
  {
    AppendAssoc([title], Block(items), [""]);
    AppendAssoc([title], Block(items) + [""], rest);
    ConsParts(title, Block(items) + [""] + rest);
  }
}

=== FILE: manage_review.dfy ===
/**
 The repository-URL and GitHub REST API logic of the backend's `GitHubCommenter`
 (`backend/manageReview.py`): `extract_owner_repo`, the URLs `get_comment` and
 `post_comment` request, and how they classify the HTTP status they get back.
 The HTTP requests and the Gemini call are function parameters.
 */
module ManageReview {
  import opened Wrappers
  import opened Sequences
  import opened Strings

  /** The Python exceptions these operations raise. */
  datatype PyError =
    | IndexError                                   // `parts[-2]` on a one-element list
    | HttpException(statusCode: int, detail: string)
    | Raised(name: string)                         // raised by `requests`, JSON decoding or Gemini

  /** `extract_owner_repo(url)`: strip trailing slashes, split on `/`, take the
      second-to-last piece as the owner and the last, with every `.git` removed, as the
      repository. A URL that has no `/` left after stripping raises `IndexError`. */
  function ExtractOwnerRepo(url: string): (r: Result<(string, string), PyError>)
    ensures r.Ok? <==> '/' in TrimEnd(url, '/')
    ensures r.Err? ==> r.error == IndexError
    ensures r.Ok? ==> '/' !in r.value.0 && '/' !in r.value.1
  {
    var parts := Split(TrimEnd(url, '/'), '/');
    SplitShape(TrimEnd(url, '/'), '/');
    if |parts| < 2 then Err(IndexError)
    else Ok((parts[|parts| - 2], RemoveAll(parts[|parts| - 1], ".git")))
  }

  /** Any number of trailing slashes is ignored. */
  lemma ExtractIgnoresTrailingSlashes(url: string, k: nat)
    ensures ExtractOwnerRepo(url + Repeat('/', k)) == ExtractOwnerRepo(url)
  {
    TrimEndPadding(url, '/', k);
  }

  /** For a URL ending in `owner/repo`, possibly followed by slashes, where the owner
      starts the URL or follows a slash, the owner is that second-to-last segment and the
      repository is the last with `.git` removed. */
  lemma {:induction false} ExtractFromPath(prefix: string, owner: string, repo: string, k: nat)
    requires prefix == "" || prefix[|prefix| - 1] == '/'
    requires '/' !in owner
    requires repo != "" && '/' !in repo
    ensures ExtractOwnerRepo(prefix + owner + "/" + repo + Repeat('/', k))
         == Ok((owner, RemoveAll(repo, ".git")))
  {
    var u := prefix + owner + "/" + repo;
    ExtractIgnoresTrailingSlashes(u, k);
    assert u[|u| - 1] == repo[|repo| - 1];
    PairEndsSplit(prefix, owner, repo);
    ExtractUnpadded(u, owner, repo);
  }

  /** A URL that does not end in a slash and whose last two pieces are known. */
  lemma ExtractUnpadded(u: string, owner: string, repo: string)
    requires |u| > 0 && u[|u| - 1] != '/'
    requires var parts := Split(u, '/');
      |parts| >= 2 && parts[|parts| - 2] == owner && parts[|parts| - 1] == repo
    ensures ExtractOwnerRepo(u) == Ok((owner, RemoveAll(repo, ".git")))
  {
    assert TrimEnd(u, '/') == u;
  }

  /** The last two pieces of `prefix + owner + "/" + repo` are `owner` and `repo`. */
  lemma PairEndsSplit(prefix: string, owner: string, repo: string)
    requires prefix == "" || prefix[|prefix| - 1] == '/'
    requires '/' !in owner && '/' !in repo
    ensures var parts := Split(prefix + owner + "/" + repo, '/');
      |parts| >= 2 && parts[|parts| - 2] == owner && parts[|parts| - 1] == repo
  {
    if prefix == "" {
      assert prefix + owner + "/" + repo == owner + ['/'] + repo;
      SplitConcat(owner, '/', repo);
      SplitNoSep(owner, '/');
      SplitNoSep(repo, '/');
    } else {
      var front := prefix[..|prefix| - 1];
      assert prefix == front + "/";
      assert prefix + owner + "/" + repo == front + ['/'] + owner + ['/'] + repo;
      SplitLastTwo(front, owner, repo, '/');
    }
  }

  /** The example URL the module runs on when started as a script. */
  lemma ExtractExample()
    ensures ExtractOwnerRepo("https://github.com/Enejivk/axes-neo-interface.git")
         == Ok(("Enejivk", "axes-neo-interface"))
  {
    ExampleShape();
    ExtractFromPath("https://github.com/", "Enejivk", "axes-neo-interface.git", 0);
    ExampleName();
  }

  lemma ExampleShape()
    ensures "https://github.com/Enejivk/axes-neo-interface.git"
         == "https://github.com/" + "Enejivk" + "/" + "axes-neo-interface.git" + Repeat('/', 0)
  {
  }

  lemma ExampleName()
    ensures RemoveAll("axes-neo-interface.git", ".git") == "axes-neo-interface"
  {
    var name: string := ['a','x','e','s','-','n','e','o','-','i','n','t','e','r','f','a','c','e'];
    assert name == "axes-neo-interface";
    assert name + ".git" == "axes-neo-interface.git";
    assert '.' !in name;
    RemoveAllTrailing(name, ".git");
  }

  /** `replace('.git', '')` makes a single left-to-right pass, so removing one occurrence
      can bring a new one together: the repository name can still contain `.git`. */
  lemma RemoveIsSinglePass()
    ensures RemoveAll("a.g.gitit", ".git") == "a.git"
    ensures Contains("a.git", ".git")
  {
    SinglePassHead();
    SinglePassTail();
    assert "a.git"[1..] == ".git";
  }

  /** The scan keeps `a.g` and reaches `.gitit`. */
  lemma SinglePassHead()
    ensures RemoveAll("a.g.gitit", ".git") == "a.g" + RemoveAll(".gitit", ".git")
  {
    SkipA();
    SkipDot();
    SkipG();
    KeepThree('a', '.', 'g', RemoveAll(".gitit", ".git"));
    assert ['a', '.', 'g'] == "a.g";
  }

  lemma SkipA()
    ensures RemoveAll("a.g.gitit", ".git") == ['a'] + RemoveAll(".g.gitit", ".git")
  {
    assert "a.g.gitit"[0] != ".git"[0] && "a.g.gitit"[1..] == ".g.gitit";
    RemoveSkip("a.g.gitit", ".git");
  }

  lemma SkipDot()
    ensures RemoveAll(".g.gitit", ".git") == ['.'] + RemoveAll("g.gitit", ".git")
  {
    assert ".g.gitit"[2] != ".git"[2] && ".g.gitit"[1..] == "g.gitit";
    RemoveSkip(".g.gitit", ".git");
  }

  lemma SkipG()
    ensures RemoveAll("g.gitit", ".git") == ['g'] + RemoveAll(".gitit", ".git")
  {
    assert "g.gitit"[0] != ".git"[0] && "g.gitit"[1..] == ".gitit";
    RemoveSkip("g.gitit", ".git");
  }

  /** The scan removes the `.git` of `.gitit` and keeps `it`. */
  lemma SinglePassTail()
    ensures RemoveAll(".gitit", ".git") == "it"
  {
    assert ".gitit"[..4] == ".git" && ".gitit"[4..] == "it";
    RemoveMatch(".gitit", ".git");
    assert "it"[0] != ".git"[0] && "it"[1..] == "t";
    RemoveSkip("it", ".git");
    assert "t"[0] != ".git"[0] && "t"[1..] == "";
    RemoveSkip("t", ".git");
  }

  /** A position where the pattern does not start keeps its character. */
  lemma RemoveSkip(s: string, pat: string)
    requires |s| > 0 && |pat| > 0 && !(pat <= s)
    ensures RemoveAll(s, pat) == [s[0]] + RemoveAll(s[1..], pat)
  {
  }

  /** A position where the pattern starts drops the pattern. */
  lemma RemoveMatch(s: string, pat: string)
    requires |pat| > 0 && pat <= s
    ensures RemoveAll(s, pat) == RemoveAll(s[|pat|..], pat)
  {
  }

  const ApiRepos: string := "https://api.github.com/repos/"

  /** `{ApiRepos}{owner}/{repo}/{kind}/{number}/{leaf}`, the shape of both endpoints the
      script calls. Past the API base, the URL splits on `/` back into its five pieces
      whenever the pieces other than the number hold no `/`. */
  function ApiUrl(owner: string, repo: string, kind: string, number: int, leaf: string): (u: string)
    ensures ApiRepos <= u
    ensures '/' !in owner && '/' !in repo && '/' !in kind && '/' !in leaf ==>
      Split(u[|ApiRepos|..], '/') == [owner, repo, kind, IntToString(number), leaf]
  {
    var parts := [owner, repo, kind, IntToString(number), leaf];
    assert '/' !in owner && '/' !in repo && '/' !in kind && '/' !in leaf ==>
      Split(Join(parts, "/"), '/') == parts
    by {
      if '/' !in owner && '/' !in repo && '/' !in kind && '/' !in leaf {
        PathPieces(parts);
        SplitJoin(parts, '/');
      }
    }
    ApiRepos + Join(parts, "/")
  }

  /** The `files_url` of `get_comment`: the pull request's changed files. */
  function FilesUrl(owner: string, repo: string, number: int): (u: string)
    ensures ApiRepos <= u
    ensures '/' !in owner && '/' !in repo ==>
      Split(u[|ApiRepos|..], '/') == [owner, repo, "pulls", IntToString(number), "files"]
  {
    ApiUrl(owner, repo, "pulls", number, "files")
  }

  /** The `comment_url` of `post_comment`: pull requests take comments through the issues
      API. */
  function CommentsUrl(owner: string, repo: string, number: int): (u: string)
    ensures ApiRepos <= u
    ensures '/' !in owner && '/' !in repo ==>
      Split(u[|ApiRepos|..], '/') == [owner, repo, "issues", IntToString(number), "comments"]
  {
    ApiUrl(owner, repo, "issues", number, "comments")
  }

  /** The pieces of an API path hold no `/`: the words by assumption and the decimal
      number by its characters. */
  lemma PathPieces(parts: seq<string>)
    requires |parts| == 5 && '/' !in parts[0] && '/' !in parts[1]
    requires '/' !in parts[2] && '/' !in parts[4]
    requires forall k :: 0 <= k < |parts[3]| ==> IsDigit(parts[3][k]) || parts[3][k] == '-'
    ensures Free(parts, '/')
  {
  }

  /** What `requests` hands back: the status code and what `str(response.json())` gave,
      an error when the body is not JSON. */
  datatype HttpResponse = HttpResponse(statusCode: int, json: Result<string, PyError>)

  /** The JSON object `{"body": comment}` sent to the comments endpoint. */
  datatype CommentPayload = CommentPayload(body: string)

  const FetchFailed: string := "Failed to fetch PR files."
  const PostFailed: string := "Failed to post comment."
  const Posted: string := "Comment posted successfully."

  /** `get_comment(url, number)`: fetch the files of the pull request with `fetch` and, on
      status 200 only, hand the decoded body to the generator; any other status raises an
      `HTTPException` carrying that status. An exception from the request, from decoding
      the body or from the generator propagates unchanged. */
  function GetComment(url: string, number: int, fetch: string -> Result<HttpResponse, PyError>,
                      generate: string -> Result<string, PyError>)
    : (r: Result<string, PyError>)
    ensures ExtractOwnerRepo(url).Err? ==> r == Err(IndexError)
    ensures ExtractOwnerRepo(url).Ok? ==>
      var call := fetch(FilesUrl(ExtractOwnerRepo(url).value.0, ExtractOwnerRepo(url).value.1, number));
      && (call.Err? ==> r == Err(call.error))
      && (call.Ok? && call.value.statusCode != 200 ==>
            r == Err(HttpException(call.value.statusCode, FetchFailed)))
      && (call.Ok? && call.value.statusCode == 200 ==>
            r == if call.value.json.Err? then Err(call.value.json.error) else generate(call.value.json.value))
    ensures r.Ok? ==> exists body :: r == generate(body)
  {
    match ExtractOwnerRepo(url)
    case Err(e) => Err(e)
    case Ok((owner, repo)) =>
      match fetch(FilesUrl(owner, repo, number))
      case Err(e) => Err(e)
      case Ok(resp) =>
        if resp.statusCode == 200 then
          match resp.json
          case Err(e) => Err(e)
          case Ok(body) => generate(body)
        else Err(HttpException(resp.statusCode, FetchFailed))
  }

  /** `post_comment(comment, number, url)`: post `{"body": comment}` to the comments URL
      with `post`, which gives the status code or the exception `requests` raised; only
      status 201 counts as success, any other raises an `HTTPException` carrying that
      status. */
  function PostComment(comment: string, number: int, url: string,
                       post: (string, CommentPayload) -> Result<int, PyError>)
    : (r: Result<string, PyError>)
    ensures ExtractOwnerRepo(url).Err? ==> r == Err(IndexError)
    ensures ExtractOwnerRepo(url).Ok? ==>
      var call := post(CommentsUrl(ExtractOwnerRepo(url).value.0, ExtractOwnerRepo(url).value.1, number),
                       CommentPayload(comment));
      && (r.Ok? <==> call == Ok(201))
      && (r.Ok? ==> r.value == Posted)
      && (call.Err? ==> r == Err(call.error))
      && (call.Ok? && call.value != 201 ==> r == Err(HttpException(call.value, PostFailed)))
  {
    match ExtractOwnerRepo(url)
    case Err(e) => Err(e)
    case Ok((owner, repo)) =>
      match post(CommentsUrl(owner, repo, number), CommentPayload(comment))
      case Err(e) => Err(e)
      case Ok(status) =>
        if status == 201 then Ok(Posted)
        else Err(HttpException(status, PostFailed))
  }
}

=== FILE: page_header.dfy ===
/**
 The repository name shown in the review page's title and in the dashboard's list of
 recent reviews: the last two `/`-separated pieces of the stored repository URL, joined
 back with `/`.
 */
module PageHeader {
  import opened Sequences
  import opened Strings

  /** `arr.slice(-2)`: the last two elements, or the whole array when it is shorter. */
  function LastTwo<T>(arr: seq<T>): (r: seq<T>)
    ensures |arr| >= 2 ==> r == [arr[|arr| - 2], arr[|arr| - 1]]
    ensures |arr| < 2 ==> r == arr
  {
    arr[(if |arr| >= 2 then |arr| - 2 else 0)..]
  }

  /** `repoUrl.split('/').slice(-2).join('/')`. The title is always a suffix of the URL,
      and a URL with at most one slash, which splits into at most two pieces, is its own
      title. */
  function DisplayName(repoUrl: string): (r: string)
    ensures EndsWith(repoUrl, r)
    ensures |Split(repoUrl, '/')| <= 2 ==> r == repoUrl
    ensures '/' !in repoUrl ==> r == repoUrl
  {
    TitleIsSuffix(repoUrl);
    Join(LastTwo(Split(repoUrl, '/')), "/")
  }

  /** The last two pieces of a split, joined back, end the string. */
  lemma TitleIsSuffix(s: string)
    ensures EndsWith(s, Join(LastTwo(Split(s, '/')), "/"))
    ensures |Split(s, '/')| <= 2 ==> Join(LastTwo(Split(s, '/')), "/") == s
    ensures '/' !in s ==> Join(LastTwo(Split(s, '/')), "/") == s
  {
    var parts := Split(s, '/');
    JoinSplit(s, '/');
    SplitShape(s, '/');
    var n := |parts|;
    if n > 2 {
      var front := parts[..n - 2];
      var last := parts[n - 2..];
      SplitAtLast(parts, n - 2);
      JoinAppend(front, last, "/");
      AppendAssoc(Join(front, "/"), "/", Join(last, "/"));
      SuffixOfAppend(Join(front, "/") + "/", Join(last, "/"));
    } else {
      assert LastTwo(parts) == parts;
      assert s[0..] == s;
    }
  }

  /** A URL ending in `/owner/repo` is titled `owner/repo`. */
  lemma DisplayNameOfRepo(prefix: string, owner: string, repo: string)
    requires '/' !in owner && '/' !in repo
    ensures DisplayName(prefix + "/" + owner + "/" + repo) == owner + "/" + repo
  {
    SplitLastTwo(prefix, owner, repo, '/');
    LastTwoAppend(Split(prefix, '/'), owner, repo);
    JoinTwo(owner, repo, "/");
  }

  /** `owner/repo`, with no scheme or host, is its own title. */
  lemma DisplayNameOfPair(owner: string, repo: string)
    requires '/' !in owner && '/' !in repo
    ensures DisplayName(owner + "/" + repo) == owner + "/" + repo
  {
    SplitAppend(owner, '/', repo);
    SplitNoSep(repo, '/');
    assert owner + "/" + repo == owner + ['/'] + repo;
  }

  /** Unlike the backend's `extract_owner_repo`, the title does not strip a trailing slash:
      `https://github.com/owner/repo/` is titled `repo/`. */
  lemma DisplayNameTrailingSlash(prefix: string, owner: string, repo: string)
    requires '/' !in owner && '/' !in repo
    ensures DisplayName(prefix + "/" + owner + "/" + repo + "/") == repo + "/"
  {
    var front := prefix + "/" + owner;
    var u := front + "/" + repo + "/";
    assert u + "" == u;
    SplitLastTwo(front, repo, "", '/');
    LastTwoAppend(Split(front, '/'), repo, "");
    JoinTwo(repo, "", "/");
    assert repo + "/" + "" == repo + "/";
  }

  /** The last two of a list that ends in `x, y` are `x, y`. */
  lemma LastTwoAppend<T>(front: seq<T>, x: T, y: T)
    ensures LastTwo(front + [x, y]) == [x, y]
  {
  }
}

=== FILE: review.dfy ===
/**
 The Review record the client keeps, the store it lives in, and the list edits the
 review page applies to a draft. The store module (`lib/store`) is not part of this
 model: it is kept abstract as a map from review id to review, where `updateReview`
 merges the given fields into the stored review and `addReview` files a review under
 its id.
 */
module Reviews {
  import opened Wrappers

  /** A generated pull-request review. `createdAt` is the creation time in milliseconds. */
  datatype Review = Review(
    id: string,
    repoUrl: string,
    prNumber: int,
    createdAt: int,
    summary: string,
    strengths: seq<string>,
    concerns: seq<string>,
    suggestions: seq<string>,
    githubCommentId: Option<string>)

  /** JavaScript truthiness of an optional string: present and non-empty. */
  predicate Truthy(v: Option<string>)
  {
    v.Some? && v.value != ""
  }

  /** A partial review, as passed to `updateReview`: `Some` for every field it sets. */
  datatype Patch = Patch(
    id: Option<string>,
    repoUrl: Option<string>,
    prNumber: Option<int>,
    createdAt: Option<int>,
    summary: Option<string>,
    strengths: Option<seq<string>>,
    concerns: Option<seq<string>>,
    suggestions: Option<seq<string>>,
    githubCommentId: Option<Option<string>>)

  function Pick<T>(p: Option<T>, current: T): T
  {
    if p.Some? then p.value else current
  }

  /** The patch that sets no field. */
  const NoChange: Patch := Patch(None, None, None, None, None, None, None, None, None)

  /** `{ ...review, ...patch }`: every field the patch sets takes the patch's value, every
      other field is kept, and so the empty patch changes nothing. */
  function Merge(r: Review, p: Patch): (m: Review)
    ensures p == NoChange ==> m == r
    ensures p.id.Some? ==> m.id == p.id.value
    ensures p.id.None? ==> m.id == r.id
    ensures p.repoUrl.Some? ==> m.repoUrl == p.repoUrl.value
    ensures p.repoUrl.None? ==> m.repoUrl == r.repoUrl
    ensures p.prNumber.Some? ==> m.prNumber == p.prNumber.value
    ensures p.prNumber.None? ==> m.prNumber == r.prNumber
    ensures p.createdAt.Some? ==> m.createdAt == p.createdAt.value
    ensures p.createdAt.None? ==> m.createdAt == r.createdAt
    ensures p.summary.Some? ==> m.summary == p.summary.value
    ensures p.summary.None? ==> m.summary == r.summary
    ensures p.strengths.Some? ==> m.strengths == p.strengths.value
    ensures p.strengths.None? ==> m.strengths == r.strengths
    ensures p.concerns.Some? ==> m.concerns == p.concerns.value
    ensures p.concerns.None? ==> m.concerns == r.concerns
    ensures p.suggestions.Some? ==> m.suggestions == p.suggestions.value
    ensures p.suggestions.None? ==> m.suggestions == r.suggestions
    ensures p.githubCommentId.Some? ==> m.githubCommentId == p.githubCommentId.value
    ensures p.githubCommentId.None? ==> m.githubCommentId == r.githubCommentId
  {
    Review(
      Pick(p.id, r.id), Pick(p.repoUrl, r.repoUrl), Pick(p.prNumber, r.prNumber),
      Pick(p.createdAt, r.createdAt), Pick(p.summary, r.summary),
      Pick(p.strengths, r.strengths), Pick(p.concerns, r.concerns),
      Pick(p.suggestions, r.suggestions), Pick(p.githubCommentId, r.githubCommentId))
  }

  /** The patch that carries every field of `r`: passing a whole review to `updateReview`. */
  function Whole(r: Review): Patch
  {
    Patch(Some(r.id), Some(r.repoUrl), Some(r.prNumber), Some(r.createdAt), Some(r.summary),
          Some(r.strengths), Some(r.concerns), Some(r.suggestions), Some(r.githubCommentId))
  }

  /** The patch `{ githubCommentId: commentId }`. */
  function CommentIdPatch(commentId: string): Patch
  {
    Patch(None, None, None, None, None, None, None, None, Some(Some(commentId)))
  }

  /** Merging the same patch twice is merging it once. */
  lemma MergeIdempotent(r: Review, p: Patch)
    ensures Merge(Merge(r, p), p) == Merge(r, p)
  {
  }

  /** Merging a whole review replaces the stored one by it. */
  lemma MergeWhole(r: Review, d: Review)
    ensures Merge(r, Whole(d)) == d
  {
  }

  /** Merging a comment-id patch sets that id and changes nothing else. */
  lemma MergeCommentId(r: Review, commentId: string)
    ensures Merge(r, CommentIdPatch(commentId)) == r.(githubCommentId := Some(commentId))
  {
  }

  /** The abstract store: reviews by id. */
  type Store = map<string, Review>

  /** Every review is filed under its own id. */
  predicate WellKeyed(store: Store)
  {
    forall k :: k in store ==> store[k].id == k
  }

  /** `updateReview(id, patch)`: merges the patch into the review filed under `id`; an
      unknown id leaves the store as it is. No other review changes. */
  function UpdateReview(store: Store, id: string, p: Patch): (s: Store)
    ensures s.Keys == store.Keys
    ensures id in store ==> s[id] == Merge(store[id], p)
    ensures forall k :: k in store && k != id ==> s[k] == store[k]
    ensures id !in store ==> s == store
  {
    if id in store then store[id := Merge(store[id], p)] else store
  }

  /** `addReview(review)`: the review becomes visible under its id. */
  function AddReview(store: Store, r: Review): (s: Store)
    ensures s.Keys == store.Keys + {r.id}
    ensures s[r.id] == r
    ensures forall k :: k in store && k != r.id ==> s[k] == store[k]
  {
    store[r.id := r]
  }

  /** `[...items, '']`: the "Add" buttons append one empty entry. */
  function AppendEmpty(items: seq<string>): (r: seq<string>)
    ensures |r| == |items| + 1
    ensures r[..|items|] == items
    ensures r[|items|] == ""
  {
    items + [""]
  }

  /** `items.filter((_, i) => i !== index)` applied to the part of a list that starts at
      position `offset`: keeps every entry whose position is not `index`. */
  function FilterIndex(items: seq<string>, index: int, offset: int): (r: seq<string>)
    ensures offset <= index < offset + |items| ==>
      r == items[..index - offset] + items[index - offset + 1..]
    ensures !(offset <= index < offset + |items|) ==> r == items
    decreases |items|
  {
    if |items| == 0 then []
    else (if offset != index then [items[0]] else []) + FilterIndex(items[1..], index, offset + 1)
  }

  /** The "×" buttons: drop the entry at `index`, keeping the rest in order; an index
      outside the list leaves it unchanged, as `filter` does. */
  function RemoveAt(items: seq<string>, index: int): (r: seq<string>)
    ensures 0 <= index < |items| ==> |r| == |items| - 1
    ensures 0 <= index < |items| ==>
      (forall k :: 0 <= k < index ==> r[k] == items[k]) &&
      (forall k :: index <= k < |r| ==> r[k] == items[k + 1])
    ensures !(0 <= index < |items|) ==> r == items
  {
    FilterIndex(items, index, 0)
  }

  /** `copy[index] = value` on a copy of the list, for an index the page rendered. */
  function ReplaceAt(items: seq<string>, index: int, value: string): (r: seq<string>)
    requires 0 <= index < |items|
    ensures |r| == |items|
    ensures r[index] == value
    ensures forall k :: 0 <= k < |items| && k != index ==> r[k] == items[k]
  {
    items[index := value]
  }

  /** Removing the entry that "Add" just appended gives back the list: the two undo each other. */
  lemma RemoveUndoesAdd(items: seq<string>)
    ensures RemoveAt(AppendEmpty(items), |items|) == items
  {
    assert AppendEmpty(items)[..|items|] == items;
  }

  /** Putting back the old entry after a replacement restores the list. */
  lemma ReplaceRoundTrip(items: seq<string>, index: int, value: string)
    requires 0 <= index < |items|
    ensures ReplaceAt(ReplaceAt(items, index, value), index, items[index]) == items
  {
  }
}

=== FILE: review_page.dfy ===
/**
 The review page's handlers as a state machine: the page state is the store, the
 displayed review, the draft (`editedReview`), the edit and posting flags and the post
 error. Publishing is split into its two halves: the click that calls `postToGitHub`
 and the later settlement of that call. The page's effect that re-reads the review
 from the store whenever the store's reviews change is applied after every store
 update (`Refresh`).
 */
module ReviewPage {
  import opened Wrappers
  import opened Reviews

  /** The three list sections a draft edits. */
  datatype ListField = Strengths | Concerns | Suggestions

  function Items(r: Review, f: ListField): seq<string>
  {
    match f
    case Strengths => r.strengths
    case Concerns => r.concerns
    case Suggestions => r.suggestions
  }

  function WithItems(r: Review, f: ListField, items: seq<string>): (r': Review)
    ensures Items(r', f) == items
    ensures forall g :: g != f ==> Items(r', g) == Items(r, g)
  {
    match f
    case Strengths => r.(strengths := items)
    case Concerns => r.(concerns := items)
    case Suggestions => r.(suggestions := items)
  }

  /** The edit controls shown while editing: the summary text area, and per list an input
      and a "×" button for every entry and an "Add" button. */
  datatype DraftEdit =
    | SetSummary(text: string)
    | AddItem(field: ListField)
    | RemoveItem(field: ListField, index: int)
    | ReplaceItem(field: ListField, index: int, text: string)

  /** An input is rendered only for an entry that exists. */
  predicate Offered(d: Review, e: DraftEdit)
  {
    e.ReplaceItem? ==> 0 <= e.index < |Items(d, e.field)|
  }

  /** The fields a draft edit never touches agree: id, repository, pull request number,
      creation time and comment id. */
  predicate SameIdentity(a: Review, b: Review)
  {
    && a.id == b.id
    && a.repoUrl == b.repoUrl
    && a.prNumber == b.prNumber
    && a.createdAt == b.createdAt
    && a.githubCommentId == b.githubCommentId
  }

  /** `setEditedReview({ ...editedReview, <field>: ... })`: one edit of the draft. Only the
      edited field changes. */
  function ApplyEdit(d: Review, e: DraftEdit): (r: Review)
    requires Offered(d, e)
    ensures SameIdentity(r, d)
    ensures !e.SetSummary? ==> r.summary == d.summary
    ensures !e.SetSummary? ==> forall g :: g != e.field ==> Items(r, g) == Items(d, g)
    ensures e.SetSummary? ==> r == d.(summary := e.text)
    ensures e.AddItem? ==> |Items(r, e.field)| == |Items(d, e.field)| + 1
    ensures e.ReplaceItem? ==> |Items(r, e.field)| == |Items(d, e.field)|
    ensures e.RemoveItem? && 0 <= e.index < |Items(d, e.field)| ==>
      |Items(r, e.field)| == |Items(d, e.field)| - 1
    ensures e.RemoveItem? && !(0 <= e.index < |Items(d, e.field)|) ==> r == d
  {
    match e
    case SetSummary(t) => d.(summary := t)
    case AddItem(f) => WithItems(d, f, AppendEmpty(Items(d, f)))
    case RemoveItem(f, i) => WithItems(d, f, RemoveAt(Items(d, f), i))
    case ReplaceItem(f, i, t) => WithItems(d, f, ReplaceAt(Items(d, f), i, t))
  }

  /** How the awaited `postToGitHub(review)` settled. */
  datatype PostResult =
    | Returned(commentId: Option<string>)   // the promise resolved, possibly to null or ''
    | Threw                                  // the promise rejected

  const FailedMessage: string := "Failed to post review to GitHub. Please check your permissions and try again."
  const ErrorMessage: string := "An error occurred while posting to GitHub."

  /** The page's state. `inFlight` is the review handed to a `postToGitHub` call that has
      not settled; `posted` lists every review handed to `postToGitHub`, in order. */
  datatype Page = Page(
    store: Store,
    review: Review,
    draft: Review,
    isEditing: bool,
    isPosting: bool,
    postError: Option<string>,
    inFlight: Option<Review>,
    posted: seq<Review>)

  /** Opening the page for the review `id`: the effect finds it in the store and shows it,
      with the draft a copy of it; an unknown id shows "Review Not Found". */
  function Open(store: Store, id: string): (p: Option<Page>)
    ensures p.Some? <==> id in store
    ensures p.Some? ==> p.value.review == store[id] && p.value.draft == store[id]
    ensures p.Some? ==> !p.value.isEditing && !p.value.isPosting && p.value.posted == []
  {
    if id in store then Some(Page(store, store[id], store[id], false, false, None, None, []))
    else None
  }

  /** The effect on `[id, reviews]`: after the store changed, the displayed review and the
      draft are both re-read from it. */
  function Refresh(p: Page): (r: Page)
    ensures p.review.id in p.store ==> r.review == p.store[p.review.id] && r.draft == r.review
    ensures p.review.id !in p.store ==> r == p
    ensures r == p.(review := r.review, draft := r.draft)
  {
    if p.review.id in p.store then p.(review := p.store[p.review.id], draft := p.store[p.review.id])
    else p
  }

  /** In a store that files every review under its id, re-reading twice is re-reading once. */
  lemma RefreshIdempotent(p: Page)
    requires WellKeyed(p.store)
    ensures Refresh(Refresh(p)) == Refresh(p)
  {
  }

  /** `handleEditToggle`: entering edit mode copies the review into the draft; leaving it
      keeps the draft but writes nothing. Neither touches the store or the review. */
  function HandleEditToggle(p: Page): (r: Page)
    ensures r.isEditing == !p.isEditing
    ensures !p.isEditing ==> r.draft == p.review
    ensures p.isEditing ==> r.draft == p.draft
    ensures r.store == p.store && r.review == p.review
    ensures r.isPosting == p.isPosting && r.inFlight == p.inFlight && r.posted == p.posted
  {
    p.(isEditing := !p.isEditing, draft := if !p.isEditing then p.review else p.draft)
  }

  /** `handleSave`: `updateReview(review.id, editedReview)`, show the draft, leave edit mode.
      When the review is stored and the draft keeps its id, the store then holds the draft
      under that id and the page shows it; the posting state is untouched. */
  function HandleSave(p: Page): (r: Page)
    ensures !r.isEditing
    ensures p.review.id in p.store && p.draft.id == p.review.id ==>
      && r.store == p.store[p.review.id := p.draft]
      && r.review == p.draft && r.draft == p.draft
    ensures p.review.id !in p.store ==> r.store == p.store
    ensures r.isPosting == p.isPosting && r.inFlight == p.inFlight
    ensures r.posted == p.posted && r.postError == p.postError
  {
    var saved := p.(store := UpdateReview(p.store, p.review.id, Whole(p.draft)), review := p.draft, isEditing := false);
    if p.review.id in p.store then
      MergeWhole(p.store[p.review.id], p.draft);
      Refresh(saved)
    else
      Refresh(saved)
  }

  /** The "Post to GitHub" buttons exist only outside edit mode and are disabled while a
      post is in flight or once the review has a comment id. */
  function PostEnabled(p: Page): (b: bool)
    ensures b ==> !p.isEditing && !Truthy(p.review.githubCommentId)
    ensures Inv(p) && b ==> p.inFlight.None?
    ensures Inv(p) && p.inFlight.Some? ==> !b
  {
    !p.isEditing && !p.isPosting && !Truthy(p.review.githubCommentId)
  }

  /** The first half of `handlePostToGitHub`: set the posting flag, clear the error, and
      hand the review to `postToGitHub`. */
  function BeginPost(p: Page): (r: Page)
    ensures r.isPosting && r.postError.None?
    ensures r.inFlight == Some(p.review) && r.posted == p.posted + [p.review]
    ensures r.store == p.store && r.review == p.review && r.draft == p.draft
  {
    p.(isPosting := true, postError := None, inFlight := Some(p.review), posted := p.posted + [p.review])
  }

  /** The second half of `handlePostToGitHub`: a truthy comment id is written to the review
      the call was made for; a falsy result or a rejection leaves store and review alone
      and sets an error. The posting flag is cleared in every case. */
  function SettlePost(p: Page, result: PostResult): (r: Page)
    requires p.inFlight.Some?
    ensures !r.isPosting && r.inFlight.None? && r.posted == p.posted
    ensures result.Returned? && Truthy(result.commentId) ==>
      && r.postError.None?
      && r.store == UpdateReview(p.store, p.inFlight.value.id, CommentIdPatch(result.commentId.value))
    ensures !(result.Returned? && Truthy(result.commentId)) ==>
      && r.store == p.store && r.review == p.review && r.draft == p.draft
      && r.postError == Some(if result.Threw? then ErrorMessage else FailedMessage)
  {
    var settled := p.(isPosting := false, inFlight := None);
    match result
    case Threw => settled.(postError := Some(ErrorMessage))
    case Returned(commentId) =>
      if Truthy(commentId) then
        Refresh(settled.(store := UpdateReview(p.store, p.inFlight.value.id, CommentIdPatch(commentId.value)),
                         postError := None))
      else settled.(postError := Some(FailedMessage))
  }

  /** What the user (or the pending call) can do on the page. */
  datatype Event =
    | ToggleEdit
    | Save
    | Edit(edit: DraftEdit)
    | ClickPost
    | Settle(result: PostResult)

  /** One event. Controls that are not rendered, or are disabled, do nothing. */
  function Step(p: Page, ev: Event): (r: Page)
    ensures r.posted == p.posted || (ev.ClickPost? && PostEnabled(p) && r.posted == p.posted + [p.review])
    ensures ev.Edit? ==> r.store == p.store && r.review == p.review && r.isEditing == p.isEditing
  {
    match ev
    case ToggleEdit => HandleEditToggle(p)
    case Save => if p.isEditing then HandleSave(p) else p
    case Edit(e) => if p.isEditing && Offered(p.draft, e) then p.(draft := ApplyEdit(p.draft, e)) else p
    case ClickPost => if PostEnabled(p) then BeginPost(p) else p
    case Settle(result) => if p.inFlight.Some? then SettlePost(p, result) else p
  }

  /** A sequence of events, applied in order. */
  function Run(p: Page, evs: seq<Event>): Page
    decreases |evs|
  {
    if |evs| == 0 then p else Run(Step(p, evs[0]), evs[1..])
  }

  /** The page invariant. */
  predicate Inv(p: Page)
  {
    && WellKeyed(p.store)
    && p.review.id in p.store
    && p.store[p.review.id] == p.review
    && SameIdentity(p.draft, p.review)
    && (p.isPosting <==> p.inFlight.Some?)
    && (p.inFlight.Some? ==> p.inFlight.value.id == p.review.id && !Truthy(p.review.githubCommentId))
  }

  /** A freshly opened page satisfies the invariant. */
  lemma OpenInv(store: Store, id: string)
    requires WellKeyed(store) && id in store
    ensures Inv(Open(store, id).value)
  {
  }

  /** Every event keeps the invariant. */
  lemma StepInv(p: Page, ev: Event)
    requires Inv(p)
    ensures Inv(Step(p, ev))
  {
    match ev
    case Save =>
      if p.isEditing {
        MergeWhole(p.store[p.review.id], p.draft);
      }
    case Settle(result) =>
      if p.inFlight.Some? && result.Returned? && Truthy(result.commentId) {
        MergeCommentId(p.store[p.review.id], result.commentId.value);
      }
    case _ =>
  }

  /** Save writes the draft to the store under the review's id, shows it and leaves edit
      mode; the id, repository, pull request number and creation time survive. */
  lemma SaveCommitsDraft(p: Page)
    requires Inv(p) && p.isEditing
    ensures Step(p, Save).store == p.store[p.review.id := p.draft]
    ensures Step(p, Save).review == p.draft && Step(p, Save).draft == p.draft
    ensures !Step(p, Save).isEditing
    ensures SameIdentity(Step(p, Save).review, p.review)
  {
    MergeWhole(p.store[p.review.id], p.draft);
  }

  /** Editing the draft and then cancelling leaves the store and the review as they were,
      whatever the edits were. */
  lemma CancelDiscardsEdits(p: Page, edits: seq<Event>)
    requires Inv(p) && !p.isEditing
    requires forall i :: 0 <= i < |edits| ==> edits[i].Edit?
    ensures Step(Run(Step(p, ToggleEdit), edits), ToggleEdit).store == p.store
    ensures Step(Run(Step(p, ToggleEdit), edits), ToggleEdit).review == p.review
    ensures !Step(Run(Step(p, ToggleEdit), edits), ToggleEdit).isEditing
  {
    EditsOnlyTouchDraft(Step(p, ToggleEdit), edits);
  }

  /** A run of draft edits changes nothing but the draft. */
  lemma {:induction false} EditsOnlyTouchDraft(p: Page, edits: seq<Event>)
    requires forall i :: 0 <= i < |edits| ==> edits[i].Edit?
    ensures Run(p, edits) == p.(draft := Run(p, edits).draft)
    decreases |edits|
  {
    if |edits| > 0 {
      EditsOnlyTouchDraft(Step(p, edits[0]), edits[1..]);
    }
  }

  /** Entering edit mode, replacing the first strength and saving changes exactly that
      entry of the stored and displayed review. */
  lemma ReplaceFirstStrengthAndSave(p: Page, text: string)
    requires Inv(p) && !p.isEditing && |p.review.strengths| > 0
    ensures Run(p, [ToggleEdit, Edit(ReplaceItem(Strengths, 0, text)), Save]).review
         == p.review.(strengths := p.review.strengths[0 := text])
    ensures Run(p, [ToggleEdit, Edit(ReplaceItem(Strengths, 0, text)), Save]).store
         == p.store[p.review.id := p.review.(strengths := p.review.strengths[0 := text])]
  {
    var q1 := Step(p, ToggleEdit);
    var q2 := Step(q1, Edit(ReplaceItem(Strengths, 0, text)));
    assert q2.draft == p.review.(strengths := p.review.strengths[0 := text]);
    StepInv(p, ToggleEdit);
    StepInv(q1, Edit(ReplaceItem(Strengths, 0, text)));
    SaveCommitsDraft(q2);
    var evs := [ToggleEdit, Edit(ReplaceItem(Strengths, 0, text)), Save];
    assert evs[1..] == [Edit(ReplaceItem(Strengths, 0, text)), Save];
    assert evs[1..][1..] == [Save];
    assert [Save][1..] == [];
    assert Run(p, evs) == Run(q1, evs[1..]) == Run(q2, [Save]) == Step(q2, Save);
  }

  /** While a post is in flight, clicking again calls nothing. */
  lemma NoSecondPostInFlight(p: Page)
    requires p.isPosting
    ensures Step(p, ClickPost) == p
  {
  }

  /** After a failed post the review is unchanged and, outside edit mode, posting can be
      tried again. */
  lemma FailureAllowsRetry(p: Page, result: PostResult)
    requires Inv(p) && p.inFlight.Some? && !p.isEditing
    requires !(result.Returned? && Truthy(result.commentId))
    ensures Step(p, Settle(result)).review == p.review
    ensures PostEnabled(Step(p, Settle(result)))
  {
  }

  /** A truthy comment id from the post lands on the review, which from then on cannot be
      posted again. */
  lemma SuccessMarksPublished(p: Page, commentId: string)
    requires Inv(p) && p.inFlight.Some? && commentId != ""
    ensures Step(p, Settle(Returned(Some(commentId)))).review == p.review.(githubCommentId := Some(commentId))
    ensures !PostEnabled(Step(p, Settle(Returned(Some(commentId)))))
    ensures Step(p, Settle(Returned(Some(commentId)))).draft == p.review.(githubCommentId := Some(commentId))
    ensures Step(p, Settle(Returned(Some(commentId)))).isEditing == p.isEditing
  {
    MergeCommentId(p.store[p.review.id], commentId);
  }

  /** At most once: once the review carries a comment id, no sequence of events hands it
      to `postToGitHub` again or changes that id. */
  lemma {:induction false} AtMostOnce(p: Page, evs: seq<Event>)
    requires Inv(p) && Truthy(p.review.githubCommentId)
    ensures Run(p, evs).posted == p.posted
    ensures Run(p, evs).review.githubCommentId == p.review.githubCommentId
    decreases |evs|
  {
    if |evs| > 0 {
      var q := Step(p, evs[0]);
      StepInv(p, evs[0]);
      StepKeepsCommentId(p, evs[0]);
      AtMostOnce(q, evs[1..]);
    }
  }

  /** One event never sends or alters the comment id of a review that already has one. */
  lemma StepKeepsCommentId(p: Page, ev: Event)
    requires Inv(p) && Truthy(p.review.githubCommentId)
    ensures Step(p, ev).posted == p.posted
    ensures Step(p, ev).review.githubCommentId == p.review.githubCommentId
  {
    if ev.Save? && p.isEditing {
      SaveCommitsDraft(p);
    }
  }
}

=== FILE: sequences.dfy ===
/**
 Facts about sequences stated for any element type, so that the solver does not look
 inside the elements, and the suffix test the model uses for strings and lists alike.
 */
module Sequences {

  /** `c` is a suffix of `s`. */
  predicate EndsWith<T(==)>(s: seq<T>, c: seq<T>)
  {
    |c| <= |s| && s[|s| - |c|..] == c
  }

  /** What follows an append ends the result. */
  lemma SuffixOfAppend<T>(a: seq<T>, b: seq<T>)
    ensures EndsWith(a + b, b)
  {
  }

  lemma ConsAppend<T>(x: T, left: seq<T>, right: seq<T>)
    ensures [x] + (left + right) == ([x] + left) + right
  {
  }

  lemma HeadOfAppend<T>(left: seq<T>, right: seq<T>)
    requires |left| >= 1
    ensures (left + right)[0] == left[0]
  {
  }

  lemma MergeFront<T>(f: T, left: seq<T>, right: seq<T>)
    requires |left| >= 1
    ensures [f] + (left + right)[1..] == ([f] + left[1..]) + right
  {
    assert (left + right)[1..] == left[1..] + right;
  }

  lemma AppendAssoc<T>(a: seq<T>, b: seq<T>, c: seq<T>)
    ensures (a + b) + c == a + (b + c)
  {
  }

  lemma TailOfAppend<T>(a: seq<T>, b: seq<T>)
    requires |a| >= 1
    ensures (a + b)[0] == a[0] && (a + b)[1..] == a[1..] + b
  {
  }

  lemma ConsParts<T>(x: T, b: seq<T>)
    ensures ([x] + b)[0] == x && ([x] + b)[1..] == b
  {
  }

  lemma HeadTail<T>(s: seq<T>)
    requires |s| >= 1
    ensures [s[0]] + s[1..] == s
  {
  }

  lemma EmptyAppend<T>(a: seq<T>, b: seq<T>)
    requires |a| == 0
    ensures a + b == b
  {
  }

  lemma SplitAtLast<T>(s: seq<T>, k: nat)
    requires k <= |s|
    ensures s[..k] + s[k..] == s
  {
  }

  lemma FirstTwo<T>(x: T, y: T, rest: seq<T>)
    ensures |[x, y] + rest| >= 2 && ([x, y] + rest)[0] == x && ([x, y] + rest)[1] == y
  {
  }

  lemma KeepThree<T>(a: T, b: T, c: T, rest: seq<T>)
    ensures [a] + ([b] + ([c] + rest)) == [a, b, c] + rest
  {
  }

  /** Where the fixed lines of an export sit: two heading lines, a blank line, the
      summary's two lines, a blank line, then the rest. */
  lemma Layout<T>(h: seq<T>, e: T, s: seq<T>, rest: seq<T>)
    requires |h| == 2 && |s| == 2 && |rest| >= 1
    ensures var l := h + [e] + (s + [e] + rest);
      && |l| >= 7 && l[2] == e && l[3] == s[0] && l[4] == s[1] && l[5] == e
      && l[6] == rest[0] && l[7..] == rest[1..]
  {
  }
}

=== FILE: strings.dfy ===
/**
 String helpers shared by the client (TypeScript) and backend (Python) models:
 one-character `split`, `join`, `includes`/`in`, `rstrip`, `replace(pat, '')`,
 `filter(Boolean)` and decimal rendering of integers.
 */
module Strings {
  import opened Sequences


  /** No piece contains the character `sep`. */
  predicate Free(parts: seq<string>, sep: char)
  {
    forall i :: 0 <= i < |parts| ==> sep !in parts[i]
  }

  /** Splits `s` at every occurrence of `sep`, as JavaScript's `String.prototype.split`
      and Python's `str.split` do for a one-character separator: the result always
      has at least one piece, and no piece contains the separator. */
  function Split(s: string, sep: char): (parts: seq<string>)
    ensures |parts| >= 1
    decreases |s|
  {
    if |s| == 0 then [""]
    else
      var rest := Split(s[1..], sep);
      if s[0] == sep then [""] + rest
      else [[s[0]] + rest[0]] + rest[1..]
  }

  /** No piece of a split holds the separator, and the string splits into more than one
      piece exactly when it contains the separator. */
  lemma {:induction false} SplitShape(s: string, sep: char)
    ensures Free(Split(s, sep), sep)
    ensures |Split(s, sep)| == 1 <==> sep !in s
    decreases |s|
  {
    if |s| > 0 {
      SplitShape(s[1..], sep);
      var rest := Split(s[1..], sep);
      var parts := Split(s, sep);
      assert s == [s[0]] + s[1..];
      if s[0] != sep {
        assert parts == [[s[0]] + rest[0]] + rest[1..];
        forall i | 0 <= i < |parts|
          ensures sep !in parts[i]
        {
          if i > 0 {
            assert parts[i] == rest[i];
          }
        }
      } else {
        assert parts == [""] + rest;
        forall i | 0 <= i < |parts|
          ensures sep !in parts[i]
        {
          if i > 0 {
            assert parts[i] == rest[i - 1];
          }
        }
      }
    }
  }

  /** Concatenates `parts` with `sep` between neighbours (JavaScript's `Array.prototype.join`). */
  function Join(parts: seq<string>, sep: string): string
  {
    if |parts| == 0 then ""
    else if |parts| == 1 then parts[0]
    else parts[0] + sep + Join(parts[1..], sep)
  }

  /** Joining the pieces of a split with the separator gives back the original string. */
  lemma {:induction false} JoinSplit(s: string, sep: char)
    ensures Join(Split(s, sep), [sep]) == s
    decreases |s|
  {
    if |s| > 0 {
      var rest := Split(s[1..], sep);
      JoinSplit(s[1..], sep);
      if s[0] == sep {
        assert Split(s, sep) == [""] + rest;
        assert ([""] + rest)[1..] == rest;
      } else if |rest| == 1 {
        assert Split(s, sep) == [[s[0]] + rest[0]];
        assert s == [s[0]] + s[1..];
      } else {
        var parts := Split(s, sep);
        assert parts == [[s[0]] + rest[0]] + rest[1..];
        assert parts[1..] == rest[1..];
        assert Join(rest, [sep]) == rest[0] + [sep] + Join(rest[1..], [sep]);
        assert s == [s[0]] + s[1..];
      }
    }
  }

  /** A string without the separator splits into itself alone. */
  lemma {:induction false} SplitNoSep(s: string, sep: char)
    requires sep !in s
    ensures Split(s, sep) == [s]
    decreases |s|
  {
    if |s| > 0 {
      assert sep !in s[1..];
      SplitNoSep(s[1..], sep);
      assert s == [s[0]] + s[1..];
    }
  }

  /** One step of `Split`: the first character either closes an empty first piece or
      joins the first piece of the rest. */
  lemma SplitCons(c: char, t: string, sep: char)
    ensures Split([c] + t, sep) ==
      if c == sep then [""] + Split(t, sep) else [[c] + Split(t, sep)[0]] + Split(t, sep)[1..]
  {
    assert ([c] + t)[1..] == t;
  }

  /** Splitting `a + sep + b` splits `a` and `b` independently: the separator closes `a`'s last piece. */
  lemma {:induction false} SplitConcat(a: string, sep: char, b: string)
    ensures Split(a + [sep] + b, sep) == Split(a, sep) + Split(b, sep)
    decreases |a|
  {
    if |a| == 0 {
      assert a + [sep] + b == [sep] + b;
      SplitCons(sep, b, sep);
    } else {
      var t := a[1..] + [sep] + b;
      assert a + [sep] + b == [a[0]] + t;
      SplitConcat(a[1..], sep, b);
      SplitConcatStep(a[0], t, a[1..], sep, b);
      assert a == [a[0]] + a[1..];
    }
  }

  /** The inductive step of `SplitConcat`: putting a character in front of both sides keeps the split compatible. */
  lemma SplitConcatStep(c: char, t: string, a: string, sep: char, b: string)
    requires Split(t, sep) == Split(a, sep) + Split(b, sep)
    ensures Split([c] + t, sep) == Split([c] + a, sep) + Split(b, sep)
  {
    if c == sep {
      SplitStepSep(c, t, a, sep, b);
    } else {
      SplitStepOther(c, t, a, sep, b);
    }
  }

  lemma SplitStepSep(c: char, t: string, a: string, sep: char, b: string)
    requires c == sep
    requires Split(t, sep) == Split(a, sep) + Split(b, sep)
    ensures Split([c] + t, sep) == Split([c] + a, sep) + Split(b, sep)
  {
    SplitCons(c, t, sep);
    SplitCons(c, a, sep);
    ConsAppend("", Split(a, sep), Split(b, sep));
  }

  lemma SplitStepOther(c: char, t: string, a: string, sep: char, b: string)
    requires c != sep
    requires Split(t, sep) == Split(a, sep) + Split(b, sep)
    ensures Split([c] + t, sep) == Split([c] + a, sep) + Split(b, sep)
  {
    SplitCons(c, t, sep);
    SplitCons(c, a, sep);
    var left, right := Split(a, sep), Split(b, sep);
    HeadOfAppend(left, right);
    MergeFront([c] + left[0], left, right);
  }

  /** A two-piece join puts the separator between the pieces. */
  lemma JoinTwo(x: string, y: string, sep: string)
    ensures Join([x, y], sep) == x + sep + y
  {
    ConsParts(x, [y]);
    assert [x, y] == [x] + [y];
  }

  /** Joining a piece in front of a non-empty list puts a separator after it. */
  lemma JoinCons(x: string, b: seq<string>, sep: string)
    requires |b| >= 1
    ensures Join([x] + b, sep) == x + sep + Join(b, sep)
  {
    ConsParts(x, b);
  }

  /** Splitting `a + sep + b`, where `a` holds no separator, gives `a` followed by the pieces of `b`. */
  lemma SplitAppend(a: string, sep: char, b: string)
    requires sep !in a
    ensures Split(a + [sep] + b, sep) == [a] + Split(b, sep)
  {
    SplitConcat(a, sep, b);
    SplitNoSep(a, sep);
  }

  /** A string ending in two separator-free pieces, each after a separator, splits into
      the pieces of its front followed by those two. */
  lemma SplitLastTwo(front: string, x: string, y: string, sep: char)
    requires sep !in x && sep !in y
    ensures Split(front + [sep] + x + [sep] + y, sep) == Split(front, sep) + [x, y]
  {
    var f := front + [sep];
    AppendAssoc(f, x, [sep]);
    AppendAssoc(f, x + [sep], y);
    SplitConcat(front, sep, x + [sep] + y);
    SplitAppend(x, sep, y);
    SplitNoSep(y, sep);
    assert [x] + [y] == [x, y];
  }

  /** Splitting a join of separator-free pieces gives back exactly those pieces. */
  lemma {:induction false} SplitJoin(parts: seq<string>, sep: char)
    requires |parts| >= 1
    requires Free(parts, sep)
    ensures Split(Join(parts, [sep]), sep) == parts
    decreases |parts|
  {
    if |parts| == 1 {
      SplitNoSep(parts[0], sep);
    } else {
      SplitJoin(parts[1..], sep);
      SplitNoSep(parts[0], sep);
      SplitConcat(parts[0], sep, Join(parts[1..], [sep]));
      assert parts == [parts[0]] + parts[1..];
    }
  }

  /** Joining two non-empty lists of pieces is joining each and putting a separator between. */
  lemma {:induction false} JoinAppend(a: seq<string>, b: seq<string>, sep: string)
    requires |a| >= 1 && |b| >= 1
    ensures Join(a + b, sep) == Join(a, sep) + sep + Join(b, sep)
    decreases |a|
  {
    TailOfAppend(a, b);
    if |a| == 1 {
      EmptyAppend(a[1..], b);
    } else {
      JoinAppend(a[1..], b, sep);
      AppendAssoc(a[0] + sep, Join(a[1..], sep) + sep, Join(b, sep));
      AppendAssoc(a[0] + sep, Join(a[1..], sep), sep);
      AppendAssoc(a[0] + sep + Join(a[1..], sep), sep, Join(b, sep));
      AppendAssoc(a[0] + sep, Join(a[1..], sep), sep + Join(b, sep));
      AppendAssoc(Join(a[1..], sep), sep, Join(b, sep));
    }
  }

  /** Substring test: JavaScript's `String.prototype.includes` and Python's `in`. */
  predicate Contains(s: string, pat: string)
    decreases |s|
  {
    pat <= s || (|s| > 0 && Contains(s[1..], pat))
  }

  /** An occurrence at a known position is found. */
  lemma {:induction false} ContainsAt(s: string, pat: string, i: nat)
    requires i <= |s| && pat <= s[i..]
    ensures Contains(s, pat)
    decreases i
  {
    if i > 0 {
      assert s[1..][i - 1..] == s[i..];
      ContainsAt(s[1..], pat, i - 1);
    }
  }

  /** Every character of a pattern the string contains occurs in the string. */
  lemma {:induction false} ContainsChar(s: string, pat: string, c: char)
    requires Contains(s, pat) && c in pat
    ensures c in s
    decreases |s|
  {
    if !(pat <= s) {
      ContainsChar(s[1..], pat, c);
    }
  }

  /** A string lacking one of the pattern's characters does not contain the pattern. */
  lemma MissingChar(s: string, pat: string, c: char)
    requires c in pat && c !in s
    ensures !Contains(s, pat)
  {
    if Contains(s, pat) {
      ContainsChar(s, pat, c);
    }
  }

  /** How many occurrences of `pat` a left-to-right scan finds when it skips past every
      occurrence it finds: the occurrences `replace` removes. There is one exactly when
      the string contains the pattern. */
  function Occurrences(s: string, pat: string): (n: nat)
    requires |pat| > 0
    ensures n >= 1 <==> Contains(s, pat)
    decreases |s|
  {
    if |s| == 0 then 0
    else if pat <= s then 1 + Occurrences(s[|pat|..], pat)
    else Occurrences(s[1..], pat)
  }

  /** Python's `s.replace(pat, '')`: every non-overlapping occurrence of `pat`, scanned
      left to right, is removed. A string without the pattern is left as it is; otherwise
      exactly `|pat|` characters go per occurrence found, and none are added. */
  function RemoveAll(s: string, pat: string): (r: string)
    requires |pat| > 0
    ensures |s| == |r| + |pat| * Occurrences(s, pat)
    ensures !Contains(s, pat) ==> r == s
    ensures Contains(s, pat) <==> |r| < |s|
    ensures forall c :: c in r ==> c in s
    decreases |s|
  {
    if |s| == 0 then ""
    else if pat <= s then
      var rest := RemoveAll(s[|pat|..], pat);
      assert |pat| * (1 + Occurrences(s[|pat|..], pat)) == |pat| + |pat| * Occurrences(s[|pat|..], pat);
      rest
    else
      assert s == [s[0]] + s[1..];
      [s[0]] + RemoveAll(s[1..], pat)
  }

  /** A pattern appended to a string whose characters never start the pattern is removed,
      and nothing else is. */
  lemma {:induction false} RemoveAllTrailing(s: string, pat: string)
    requires |pat| > 0
    requires pat[0] !in s
    ensures RemoveAll(s + pat, pat) == s
    decreases |s|
  {
    if |s| == 0 {
      assert s + pat == pat;
      assert pat[|pat|..] == "";
    } else {
      var t := s + pat;
      assert t[0] == s[0] != pat[0];
      assert t[1..] == s[1..] + pat;
      RemoveAllTrailing(s[1..], pat);
      assert s == [s[0]] + s[1..];
    }
  }

  /** Python's `s.rstrip(c)`: drops every trailing `c`. The result is a prefix of `s`
      that does not end in `c`, and everything cut off is `c`. */
  function TrimEnd(s: string, c: char): (r: string)
    ensures r <= s
    ensures |r| == 0 || r[|r| - 1] != c
    ensures forall i :: |r| <= i < |s| ==> s[i] == c
    decreases |s|
  {
    if |s| > 0 && s[|s| - 1] == c then TrimEnd(s[..|s| - 1], c) else s
  }

  /** `k` copies of the character `c`. */
  function Repeat(c: char, k: nat): (r: string)
    ensures |r| == k
    ensures forall i :: 0 <= i < k ==> r[i] == c
  {
    seq(k, _ => c)
  }

  /** Appending any number of the stripped character does not change the stripped result. */
  lemma {:induction false} TrimEndPadding(s: string, c: char, k: nat)
    ensures TrimEnd(s + Repeat(c, k), c) == TrimEnd(s, c)
    decreases k
  {
    if k == 0 {
      assert s + Repeat(c, 0) == s;
    } else {
      var t := s + Repeat(c, k);
      assert t[|t| - 1] == c;
      assert t[..|t| - 1] == s + Repeat(c, k - 1);
      TrimEndPadding(s, c, k - 1);
    }
  }

  /** JavaScript's `filter(Boolean)` on strings: keeps the non-empty pieces, in order
      (`NonEmptyAppend`), each as often as it occurs. */
  function NonEmpty(parts: seq<string>): (r: seq<string>)
    ensures multiset(r) == multiset(parts)["" := 0]
    ensures forall i :: 0 <= i < |r| ==> r[i] != "" && r[i] in parts
    ensures forall x :: x in parts && x != "" ==> x in r
    decreases |parts|
  {
    if |parts| == 0 then []
    else
      var rest := NonEmpty(parts[1..]);
      assert parts == [parts[0]] + parts[1..];
      (if parts[0] == "" then [] else [parts[0]]) + rest
  }

  /** Filtering distributes over concatenation, so the kept pieces stay in their order. */
  lemma {:induction false} NonEmptyAppend(a: seq<string>, b: seq<string>)
    ensures NonEmpty(a + b) == NonEmpty(a) + NonEmpty(b)
    decreases |a|
  {
    if |a| > 0 {
      TailOfAppend(a, b);
      NonEmptyAppend(a[1..], b);
      AppendAssoc(if a[0] == "" then [] else [a[0]], NonEmpty(a[1..]), NonEmpty(b));
    } else {
      EmptyAppend(a, b);
      EmptyAppend(NonEmpty(a), NonEmpty(b));
    }
  }

  predicate IsDigit(c: char)
  {
    '0' <= c <= '9'
  }

  /** Decimal rendering of a natural number without leading zeros. */
  function NatToString(n: nat): (r: string)
    ensures |r| >= 1
    ensures forall i :: 0 <= i < |r| ==> IsDigit(r[i])
    ensures r[0] == '0' ==> n == 0
    decreases n
  {
    if n < 10 then [(48 + n) as char]
    else NatToString(n / 10) + [(48 + n % 10) as char]
  }

  /** Decimal rendering of an integer, as JavaScript's template strings and Python's `str`
      produce for an integral number: a minus sign, then the digits of the magnitude. */
  function IntToString(i: int): (r: string)
    ensures |r| >= 1
    ensures forall k :: 0 <= k < |r| ==> IsDigit(r[k]) || r[k] == '-'
    ensures (r[0] == '-') <==> i < 0
  {
    if i < 0 then "-" + NatToString(-i) else NatToString(i)
  }
}

=== FILE: utils.dfy ===
/**
 The pure helpers of the client's `lib/utils.ts`: `truncate`, `getGitHubAvatarUrl`
 and the path-segment logic of `parseGitHubUrl`.
 */
module Utils {
  import opened Wrappers
  import opened Sequences
  import opened Strings

  /** The end index JavaScript's `s.slice(0, end)` uses for a string of length `len`:
      a negative `end` counts from the back, and the index is clamped to `[0, len]`. */
  function SliceEnd(len: nat, end: int): (k: nat)
    ensures k <= len
    ensures 0 <= end <= len ==> k == end
    ensures end < 0 && len + end >= 0 ==> k == len + end
  {
    if end < 0 then (if len + end < 0 then 0 else len + end)
    else if end > len then len
    else end
  }

  /** `truncate(str, length)`: a string that fits is returned as it is; a longer one is cut
      with `slice(0, length)` and marked with an ellipsis. */
  function Truncate(s: string, length: int): (r: string)
    ensures |s| <= length ==> r == s
    ensures |s| > length ==> |r| >= 3 && r[..|r| - 3] <= s && r[|r| - 3..] == "..."
    ensures 0 <= length < |s| ==> |r| == length + 3 && r[..length] == s[..length]
    ensures length < 0 ==> |r| == (if |s| + length < 0 then 0 else |s| + length) + 3
    ensures length >= 0 ==> |r| <= length + 3
  {
    if |s| <= length then s else s[..SliceEnd(|s|, length)] + "..."
  }

  /** Truncating a string that was already truncated to the same bound, with room for the
      ellipsis, changes nothing. */
  lemma TruncateFits(s: string, length: nat)
    ensures Truncate(Truncate(s, length), length + 3) == Truncate(s, length)
  {
  }

  const GitHubBase: string := "https://github.com/"

  /** `getGitHubAvatarUrl(username)`: the user's profile picture URL. The user name can be
      read back from between the fixed prefix and the `.png` suffix. */
  function AvatarUrl(username: string): (url: string)
    ensures |url| == |GitHubBase| + |username| + 4
    ensures GitHubBase <= url
    ensures url[|url| - 4..] == ".png"
    ensures url[|GitHubBase|..|url| - 4] == username
  {
    GitHubBase + username + ".png"
  }

  /** The two parts of a WHATWG URL that `parseGitHubUrl` reads. */
  datatype ParsedUrl = ParsedUrl(hostname: string, pathname: string)

  /** The `{ owner, repo }` object `parseGitHubUrl` returns. */
  datatype RepoRef = RepoRef(owner: string, repo: string)

  /** `pathname.split('/').filter(Boolean)`: the non-empty pieces between slashes, each
      as often as it occurs (in order, by `PathSegmentsConcat`). */
  function PathSegments(pathname: string): (segs: seq<string>)
    ensures multiset(segs) == multiset(Split(pathname, '/'))["" := 0]
    ensures forall i :: 0 <= i < |segs| ==> segs[i] != "" && '/' !in segs[i]
  {
    SplitShape(pathname, '/');
    var segs := NonEmpty(Split(pathname, '/'));
    assert forall i :: 0 <= i < |segs| ==> segs[i] in Split(pathname, '/');
    segs
  }

  /** Segments on either side of a slash come out in order, the left ones first. */
  lemma PathSegmentsConcat(a: string, b: string)
    ensures PathSegments(a + "/" + b) == PathSegments(a) + PathSegments(b)
  {
    SplitConcat(a, '/', b);
    NonEmptyAppend(Split(a, '/'), Split(b, '/'));
  }

  /** A non-empty name without a slash is one segment; the empty path has none. */
  lemma PathSegmentsName(x: string)
    requires '/' !in x
    ensures PathSegments(x) == if x == "" then [] else [x]
  {
    SplitNoSep(x, '/');
    assert [x][1..] == [];
    assert NonEmpty([x]) == (if x == "" then [] else [x]) + NonEmpty([]);
  }

  /** Leading slashes produce no segments. */
  lemma {:induction false} PathSegmentsLeading(k: nat, s: string)
    ensures PathSegments(Repeat('/', k) + s) == PathSegments(s)
    decreases k
  {
    if k > 0 {
      var t := Repeat('/', k - 1) + s;
      assert Repeat('/', k) == "/" + Repeat('/', k - 1);
      assert Repeat('/', k) + s == "" + "/" + t;
      PathSegmentsConcat("", t);
      PathSegmentsName("");
      EmptyAppend(PathSegments(""), PathSegments(t));
      PathSegmentsLeading(k - 1, s);
    } else {
      assert Repeat('/', 0) + s == s;
    }
  }

  /** `parseGitHubUrl(url)`. `url` is the outcome of the `new URL(...)` constructor: `None`
      when it throws, which the function catches and turns into `null`. Otherwise the host
      must contain `github.com` and the path must have two non-empty segments, which
      become the owner and the repository; anything after them is ignored. */
  function ParseGitHubUrl(url: Option<ParsedUrl>): (r: Option<RepoRef>)
    ensures r.Some? <==>
      url.Some? && Contains(url.value.hostname, "github.com") && |PathSegments(url.value.pathname)| >= 2
    ensures r.Some? ==>
      && r.value.owner == PathSegments(url.value.pathname)[0]
      && r.value.repo == PathSegments(url.value.pathname)[1]
    ensures r.Some? ==>
      && r.value.owner != "" && '/' !in r.value.owner
      && r.value.repo != "" && '/' !in r.value.repo
  {
    match url
    case None => None
    case Some(u) =>
      if !Contains(u.hostname, "github.com") then None
      else
        var segs := PathSegments(u.pathname);
        if |segs| < 2 then None
        else Some(RepoRef(segs[0], segs[1]))
  }

  /** Extra path segments after the repository do not change the result. */
  lemma ParseIgnoresTrailingSegments(host: string, path: string, extra: string)
    requires |PathSegments(path)| >= 2
    ensures ParseGitHubUrl(Some(ParsedUrl(host, path + "/" + extra)))
         == ParseGitHubUrl(Some(ParsedUrl(host, path)))
  {
    PathSegmentsConcat(path, extra);
  }

  /** On a GitHub host, a path whose first two non-empty segments are `owner` and `repo`
      parses to exactly that pair, however many slashes precede or separate them and
      whatever follows them. */
  lemma ParseRepoPath(host: string, i: nat, owner: string, j: nat, repo: string, extra: Option<string>)
    requires Contains(host, "github.com")
    requires owner != "" && '/' !in owner
    requires repo != "" && '/' !in repo
    ensures var path := Repeat('/', i + 1) + owner + Repeat('/', j + 1) + repo
                        + (if extra.Some? then "/" + extra.value else "");
      ParseGitHubUrl(Some(ParsedUrl(host, path))) == Some(RepoRef(owner, repo))
  {
    var base := Repeat('/', i + 1) + owner + Repeat('/', j + 1) + repo;
    var path := base + (if extra.Some? then "/" + extra.value else "");
    RepoPathSegments(i, owner, j, repo);
    if extra.Some? {
      AppendAssoc(base, "/", extra.value);
      PathSegmentsConcat(base, extra.value);
      FirstTwo(owner, repo, PathSegments(extra.value));
    } else {
      assert path == base;
    }
    ParseFirstTwo(host, path);
  }

  /** A GitHub path with two segments parses to its first two. */
  lemma ParseFirstTwo(host: string, path: string)
    requires Contains(host, "github.com") && |PathSegments(path)| >= 2
    ensures ParseGitHubUrl(Some(ParsedUrl(host, path)))
         == Some(RepoRef(PathSegments(path)[0], PathSegments(path)[1]))
  {
  }

  lemma RepoPathSegments(i: nat, owner: string, j: nat, repo: string)
    requires owner != "" && '/' !in owner
    requires repo != "" && '/' !in repo
    ensures PathSegments(Repeat('/', i + 1) + owner + Repeat('/', j + 1) + repo) == [owner, repo]
  {
    var tail := Repeat('/', j) + repo;
    RepoPathShape(Repeat('/', i + 1), owner, j, repo);
    PathSegmentsLeading(i + 1, owner + "/" + tail);
    PathSegmentsConcat(owner, tail);
    PathSegmentsLeading(j, repo);
    PathSegmentsName(owner);
    PathSegmentsName(repo);
  }

  /** Regrouping the path so the slash after the owner stands alone. */
  lemma RepoPathShape(lead: string, owner: string, j: nat, repo: string)
    ensures lead + owner + Repeat('/', j + 1) + repo == lead + (owner + "/" + (Repeat('/', j) + repo))
  {
    var rj := Repeat('/', j);
    assert Repeat('/', j + 1) == "/" + rj;
    AppendAssoc(lead + owner, "/" + rj, repo);
    AppendAssoc("/", rj, repo);
    AppendAssoc(lead, owner, "/" + (rj + repo));
    AppendAssoc(owner, "/", rj + repo);
  }
}

=== FILE: wrappers.dfy ===
/** The optional-value and result types shared by the model's modules. */
module Wrappers {

  /** A present value or nothing: JavaScript `null`/`undefined` and Python's `None`. */
  datatype Option<+T> = None | Some(value: T)

  /** The outcome of an operation that either returns a value or raises an error. */
  datatype Result<+R, +E> = Ok(value: R) | Err(error: E)
}
